=== FILE: README.md ===
# minigrep in Dafny

A model of the core of minigrep, a small command-line text search tool, with
proofs of what it promises. The model covers three parts.

- **The streaming line matcher `search`.** It reads its input one byte at a
  time. Each byte goes to two things at once. The first is a line assembler:
  it copies bytes into a current-line buffer, escapes `\r` and embedded `\n`,
  and clears the buffer at a newline. The second is a naive substring matcher
  that keeps a cursor into the query.
  - Module `Search` holds the five loop variables in `State`.
    - `Step` is one iteration of the loop body.
    - `Run`/`Scan` fold `Step` over the input.
    - `SearchOutcome` is the whole call: its result, an I/O error, or a panic.
  - The method `Search.Search` is the loop itself, written on the same
    variables as the source and proved equal to `SearchOutcome`.
  - `SearchProperties` proves, over the fold:
    - soundness;
    - the shape of the line buffer;
    - what every finding is;
    - that findings are only appended;
    - a bound on their number.
  - `SearchExamples` works the source's test vectors and the matcher's quirks
    out through the fold.
- **The result aggregator `MinigrepResults`** (module `Results`). It is a class
  whose fields are:
  - the `quiet` flag;
  - a map from path to the lines found in that file, whose keys are compared
    the way `PathBuf`s are, by their components (module `Paths`);
  - the list of directories skipped.

  `AddFindings` and `AddIgnoredDir` update it in place. `Report` models
  `Debug::fmt`:
  - the report lines are abstract `ReportLine` values;
  - files are visited in an order left open, like a hash map's;
  - the contract states the counts and the `quiet` gating.

  `Findings()` is the `findings()` accessor.
- **Argument validation, in its two revisions.** Module `Args` is
  src/args.rs, and module `EnvArgs` is src/minigrep_args.rs.
  - Module `Whitespace` models `split_whitespace`.
  - A `FileSystem` value stands for the answers of `try_exists`, `is_dir` and
    `is_file`.
  - `query()` and `path()` are the fields of the `MinigrepArgs` datatype.

How some behaviours of the source are modelled:

- **Non-ASCII input.** Input arrives through `read_to_string` on one-byte
  chunks. A byte that is not ASCII is not valid UTF-8 on its own, so that read
  fails. The model returns `IoError(InvalidData)` at the first such byte.
- **No UTF-8 error.** Every line buffer holds ASCII only, so `str::from_utf8`
  cannot fail. `SearchProperties.NeverUtf8Error` states this.
- **Empty query.** An empty query panics at `query_remainder[0]` on the first
  byte read. The model has an outcome `Panicked` for it. An empty input returns
  before that index is reached.
- **Reported lines are not "lines containing the query".** A line is not
  reported exactly when the query occurs in it. After a partial match fails,
  the byte that broke it is not tested again as a new start.
  `SearchExamples.MissedAfterFalseStart` shows `"ab"` is not found in
  `"aab"`. The model follows the code. A weaker soundness holds: an
  occurrence of the query ends in everything reported, or at the newline
  that opens it. It may begin on an earlier line, as with the query
  `"\njumps"`, which reports `"jumps over"`
  (`SearchExamples.QueryAcrossNewline`). A query ending in a newline can
  even report an empty line (`SearchExamples.QueryEndingInNewline`).

## Model

| member | source | states |
|---|---|---|
| Search.Search | src/lib.rs:37-100 | The read loop over the input's bytes ends in exactly `SearchOutcome`: the decoded findings, `IoError(InvalidData)` at a non-ASCII byte, or a panic for an empty query |
| Search.SearchOutcome | src/lib.rs:37-100 | An empty query panics exactly when the first byte is ASCII. The error is `IoError(InvalidData)` exactly when a byte that is read is not ASCII: the first byte for an empty query, any byte otherwise. The call returns its findings exactly for an empty input or a non-empty query over ASCII input. |
| Search.Scan | src/lib.rs:47-94 | After the loop the cursor is below the query length and the line buffer has no raw newline or carriage return. ASCII input leaves only ASCII bytes in the state. |
| Search.Finish | src/lib.rs:95-97 | The final flush only appends, and at most one line. It appends exactly when a match is pending, and what it appends is the line buffer. ASCII lines stay ASCII. |
| Search.AssembleLine | src/lib.rs:54-73 | Line assembly on the loop's own variables does what `Assemble` says. That includes pushing the decoded line at a newline when a match is pending. |
| Search.MatchByte | src/lib.rs:75-90 | Matching on the loop's own variables, with the remainder kept as a slice of the query, does what `Match` says. |
| Search.Assemble | src/lib.rs:54-73 | A non-newline byte appends its escaped form and changes no finding. A newline with no match pending changes no finding. A newline with a match pending pushes the buffer, without the newline, as one finding, and empties the buffer. |
| Search.ByteMatchesCases | src/lib.rs:75-79 | Equal bytes always match. Without case folding, or for a non-ASCII input byte, only equal bytes match. With case folding, a lower-case letter also matches its upper-case form. |
| Search.Match | src/lib.rs:75-90 | `inside_query` is whether the byte matches the query at the cursor (ignoring ASCII case when asked). The cursor advances on a match and otherwise goes back to 0, without re-testing the byte. `query_found` becomes set exactly when the byte completes the query, and the cursor stays below the query length. |
| Search.Step | src/lib.rs:53-90 | One byte keeps the cursor below the query length. It keeps the buffer free of raw `\n`/`\r` and keeps every byte ASCII. The findings stay as they were, or exactly one line is appended at a newline with a match pending. |
| Search.StepLine | src/lib.rs:54-73 | A byte adds a finding only at a newline while a match is pending, and then adds exactly the pending line. At a newline with no match pending, the buffer is cleared unless the previous byte matched the query; with one pending, the line is pushed and then cleared. Any other byte appends its escaped form. |
| Search.StepMatch | src/lib.rs:75-90 | After a byte, `inside_query` is whether it matches the query at the cursor. `query_found` is set when the byte completes the query and stays set until a newline clears it. The cursor advances on a match that does not complete the query and otherwise returns to 0. |
| Search.Run | src/lib.rs:47-90 | After any input the remainder is a non-empty suffix of the query (cursor < query length). The buffer never holds a raw newline or carriage return. ASCII input leaves only ASCII bytes in the state. |
| Search.EscapeByte | src/lib.rs:54-72 | `\n` and `\r` become two-byte escapes; every other byte is copied as itself. |
| Search.Escape | src/lib.rs:54-72 | The escaped form of any input has no raw line breaks, is between one and two times as long, and stays ASCII. |
| Search.DecodeAll | src/lib.rs:57 | Each finding is converted to text byte for byte. |
| Search.RunAppend | src/lib.rs:52-94 | Reading `s + t` is reading `s`, then `t`: the loop's state carries across chunk boundaries. |
| Search.RunPlain | src/lib.rs:71-90 | Bytes that neither break the line nor start the query are appended to the buffer and clear `inside_query`, and nothing else changes. |
| Search.RunMatching | src/lib.rs:71-90 | Bytes that continue the query from the cursor are appended and advance the cursor. They set `query_found` exactly when they complete the query. |
| Bytes.AsciiHighBit | src/lib.rs:75 | A byte is ASCII exactly when its high bit is clear. |
| Bytes.EqIgnoreAsciiCaseCases | src/lib.rs:76 | Two bytes are equal ignoring ASCII case exactly when they are equal or are the same letter in upper and lower case. |
| Bytes.ToAsciiLowercase | src/lib.rs:76 | `A`..`Z` map to `a`..`z`; every other byte is unchanged; ASCII-ness is kept either way. |
| Bytes.Encode | src/lib.rs:47 | An ASCII string's bytes are its characters' code points, one per character. |
| Bytes.Decode | src/lib.rs:57 | ASCII bytes decode to the string with those code points. |
| SearchProperties.CursorTracksInput | src/lib.rs:75-90 | The part of the query already matched (up to the cursor) agrees with the last bytes read. |
| SearchProperties.CursorStep | src/lib.rs:75-90 | Each byte keeps the matched part of the query in agreement with the last bytes read. |
| SearchProperties.CompletionIsSound | src/lib.rs:75-90 | When a byte completes the query, the last query-length raw input bytes (newlines included) are an occurrence of the query. |
| SearchProperties.LineIsEscapedInput | src/lib.rs:54-73 | The line buffer is exactly the escaped input since the line start where it was last cleared. |
| SearchProperties.PendingMatchOccurs | src/lib.rs:75-90 | While `query_found` is set, an occurrence of the query ends within the current line run or at the newline that opens it. |
| SearchProperties.FindingsAreReportedRuns | src/lib.rs:55-66 | Every finding pushed at a newline meets three conditions. It is the escaped input from a line start up to that newline. It is closed by a raw newline. An occurrence of the query ends within it or at the newline that opens it. |
| SearchProperties.ResultsAreReportedRuns | src/lib.rs:95-99 | After the final flush, every entry is such a line run, ended by a newline or by the end of input. |
| SearchProperties.FindingsOnlyGrow | src/lib.rs:57 | Findings are only appended: the findings after `s` are a prefix of those after `s + t`. |
| SearchProperties.FindingsBound | src/lib.rs:55-59 | At most one finding per raw newline, plus one for a match on the unterminated last line. So a line with several occurrences is reported once. |
| SearchProperties.ReturnedFindings | src/lib.rs:37-100 | Any successful result has at most newlines + 1 lines. Each is the text of a line run of the input within which, or at the newline that opens it, an occurrence of the query ends (it may begin on an earlier line, as with `\njumps`). |
| SearchExamples.OutcomeOfScan | src/lib.rs:95-99 | For ASCII input and a non-empty query, the call returns the decoded fold after the final flush. |
| SearchExamples.QueryAcrossNewline | src/lib.rs:147-154 | Searching `"The quick brown fox\njumps over\nthe lazy dog"` for `"\njumps"` gives `["jumps over"]`. |
| SearchExamples.IgnoreCaseMatch | src/lib.rs:158-161 | The same input searched for `"BROWN FOX"` with case ignored gives `["The quick brown fox"]`. |
| SearchExamples.IgnoreCaseLastLine | src/lib.rs:163-166 | `"lazy dog"` with case ignored finds `["the Lazy Dog"]` on the unterminated last line, which the final flush reports. |
| SearchExamples.MissedAfterFalseStart | src/lib.rs:81-85 | `"ab"` occurs in `"aab"`, yet the search returns `[]`: the byte after a false start is not tested again. |
| SearchExamples.PartialMatchCarriesLine | src/lib.rs:60-64 | With `"ab"`, `"xa\nab\n"` gives the single finding `xa\nab` (escaped). A partial match at the end of a line keeps that line in the buffer. |
| SearchExamples.QueryEndingInNewline | src/lib.rs:55-66 | Searching `"x\nx\n"` for `"x\n"` gives `["x\\nx", ""]`: the match completes on the newline that pushes `x\nx`, and the final flush reports the empty buffer. |
| SearchExamples.LineReportedOnce | src/lib.rs:56-59 | `"abab\n"` holds `"ab"` twice and gives `["abab"]` once. |
| SearchExamples.EmptyQueryPanics | src/lib.rs:75-79 | An empty query panics on the first byte; on an empty input it returns `[]`. |
| SearchExamples.NonAsciiIsInvalidData | src/lib.rs:52 | A non-ASCII byte makes the one-byte read fail with `InvalidData`. |
| SearchProperties.NeverUtf8Error | src/lib.rs:57 | The UTF-8 conversion of a finding never fails. |
| SearchProperties.EmptyInputFindsNothing | src/lib.rs:49-52 | An empty input gives `Ok([])` for every query, even an empty one. |
| Results.MinigrepResults.constructor | src/results.rs:14-21 | A new aggregator has the given `quiet`, no findings and no ignored directories. |
| Results.MinigrepResults.AddFindings | src/results.rs:23-28 | Keys are compared as `PathBuf`s, by their components. When a key names the same path as `file_path`, that key keeps its spelling and its list becomes the old list followed by the new one. Otherwise `file_path` becomes a new key with the list unchanged, even when it is empty. No two keys ever name the same path. The number of files grows by one exactly when no key named the path before, and the total of lines grows by the list's length. Other entries, `quiet` and `ignored_dirs` are untouched. |
| Results.MinigrepResults.Findings | src/results.rs:30-32 | The accessor hands back the findings map, in which no two keys name the same path. |
| Results.MinigrepResults.AddIgnoredDir | src/results.rs:34-36 | Exactly one path is appended to the ignored directories; findings and `quiet` are untouched, so no two keys name the same path still. |
| Results.MinigrepResults.TotalMatched | src/results.rs:53-56 | The fold over the map is the sum of the lengths of all lists, whatever order the keys are visited in. |
| Results.MinigrepResults.Summary | src/results.rs:42-57 | The summary is, in order: the ignoring header and one line per skipped directory, only when directories were skipped; then exactly one line with the number of files (map keys, ignored directories not counted); then exactly one line with the total of lines matched. It holds no findings and no separators. |
| Results.MinigrepResults.FileSection | src/results.rs:59-70 | A file's lines are exactly: one separator; unless `quiet`, one header, "no results" for an empty list and the path otherwise; then one line per finding, in order. |
| Results.MinigrepResults.Sections | src/results.rs:59-71 | There is one separator per file, and the finding lines number the total matched. Every file gets its header unless `quiet`. Nothing else is written: the length is files + total, plus files again for the headers unless `quiet`. |
| Results.MinigrepResults.Report | src/results.rs:39-74 | Finding lines number the total matched, and separators number the files. With `quiet`, only separators and findings appear. Otherwise the report opens with the summary: the ignoring header exactly when directories were skipped, every ignored directory, then the file count and the total as its last two lines. Every file's header follows. The length is exactly the summary's plus the sections', so no other line appears. |
| Results.TotalLinesRemove | src/results.rs:53-56 | The sum of list lengths does not depend on which key is counted first. |
| Results.TotalLinesAfterAdd | src/results.rs:23-28 | Adding a list to a path raises the total of lines matched by that list's length. |
| Results.OnlyKey | src/results.rs:24-25 | When no two keys name the same path, at most one key names the path looked up. |
| Results.ExtendKey | src/results.rs:26 | Appending to an existing key's list keeps the key set and the paths apart, and raises the total by the list's length. |
| Results.InsertKey | src/results.rs:27 | A key for a path no key names adds one file, keeps the paths apart, and raises the total by the list's length. |
| Results.AddTwiceToOnePath | src/results.rs:81-89 | Two additions to `test.txt` give one entry holding both findings in order. |
| Results.TwoSpellingsOfOnePath | src/results.rs:23-28 | Additions under `dir/name` and then `dir//name` give one entry, keyed by the first spelling, holding both findings in order. |
| Paths.Components | src/results.rs:9 | `Path::components` on Unix: a leading `/` gives the root, and a leading `.` part gives the current directory. After that come only `..` and plain names, never empty or `.`. |
| Paths.SamePath | src/results.rs:24-25 | Keys compare by components: equal spellings are the same path, and an absolute path never equals a relative one, nor a `.`-led path one that is not. |
| Results.SectionLayout | src/results.rs:59-70 | A file's section is the separator, the header unless `quiet`, then the findings in order. |
| Results.SectionCounts | src/results.rs:59-70 | A file's section has one separator and one finding line per entry. |
| Results.SectionKinds | src/results.rs:59-70 | A section holds only separators, headers and findings; with `quiet`, only separators and findings. |
| Results.SectionsStep | src/results.rs:59-71 | Writing one more file's section keeps the counts and lengths in step with the files left, and gives that file its header unless `quiet`. |
| Results.SummaryThenSections | src/results.rs:41-71 | After the summary come only section lines: the file count and the total stay the summary's last two lines, and the ignoring header appears exactly when directories were skipped. |
| Paths.RepeatedSeparator | src/results.rs:24-27 | `a//b` and `a/b` are the same key. |
| Paths.CurDirInside | src/results.rs:24-27 | `a/./b` and `a/b` are the same key. |
| Paths.TrailingSeparator | src/results.rs:24-27 | A trailing `/` after a non-empty path does not change the key. |
| Paths.LeadingCurDirKept | src/results.rs:24-27 | `./a` and `a` are different keys, because a leading `.` is kept as a component. |
| Whitespace.IsWhitespace | src/args.rs:29 | Among ASCII characters, exactly space and `\t` through `\r` are whitespace. No whitespace lies above U+3000. |
| Whitespace.HasSecondWord | src/args.rs:29 | `nth(1)` is `Some` exactly when whitespace separates two non-whitespace characters. |
| Whitespace.Words | src/args.rs:29 | Every word `split_whitespace` yields is non-empty and free of whitespace, and a string ending in a non-space has a word. |
| Whitespace.FirstWordIff | src/args.rs:29 | There is a first word exactly when some character is not whitespace. |
| Whitespace.SecondWordIff | src/args.rs:29 | There are at least two words exactly when whitespace separates two non-whitespace characters. |
| Args.Accessible | src/args.rs:33-34 | An accessible path exists. A path that is neither a directory nor a file is not accessible. |
| Args.Validate | src/args.rs:28-39 | Validation succeeds exactly for a one-word query and a path that exists and is a directory or file, and then returns the arguments unchanged. A multi-word query gives `QueryWhitespace` whatever the path; otherwise the error is `PathInaccessible` carrying that path. |
| Args.Build | src/args.rs:10-17 | On success the query and path are the ones given. |
| Args.FromStrings | src/args.rs:19-26 | No strings gives `QueryMissing` and one gives `PathMissing`. Otherwise the first two are validated as query and path, and only those two are consumed. |
| Args.FromStringsOk | src/args.rs:19-38 | Parsing succeeds exactly when the first two strings are a one-word query and an accessible path, and returns them unchanged. |
| Args.ErrorOrder | src/args.rs:22-36 | Each error arises exactly when every earlier check passed and its own failed, in the order missing query, missing path, whitespace, path. |
| Args.ExtraArgsIgnored | src/args.rs:22-25 | Strings after the second do not change the result and are left unconsumed. |
| Args.PaddedWordIsOneWord | src/args.rs:29-31 | One word with whitespace before or after it passes the whitespace check. |
| Args.ValidArgsTest | src/args.rs:54-70 | `build("query", "test.txt")` and `from_strings(["query", "test.txt"])` succeed with those values. |
| Args.InaccessiblePathTest | src/args.rs:72-87 | The empty path gives `PathInaccessible`. |
| Args.WhitespaceQueryTest | src/args.rs:89-104 | `"query query"` gives `QueryWhitespace`. |
| EnvArgs.Validate | src/minigrep_args.rs:29-38 | Validation succeeds exactly for a one-word query and an existing path, returning the arguments unchanged. A multi-word query gives `QueryWhitespace`; otherwise the error is `PathNotFound` carrying that path. There is no directory or file check. |
| EnvArgs.New | src/minigrep_args.rs:13-20 | On success the query and path are the ones given. |
| EnvArgs.FromEnvArgs | src/minigrep_args.rs:22-27 | The program name is skipped. A missing query gives `QueryMissing` and a missing path gives `PathMissing`; otherwise the next two items are validated. |
| EnvArgs.FromEnvArgsOk | src/minigrep_args.rs:22-38 | Parsing succeeds exactly when the two items after the program name are a one-word query and an existing path, and returns them unchanged. |
| EnvArgs.ErrorOrder | src/minigrep_args.rs:23-35 | Each error arises exactly when every earlier check passed and its own failed. |
| EnvArgs.RevisionsCompared | src/minigrep_args.rs:29-38 | Whatever src/args.rs accepts, this revision accepts too, and both reject the same queries. An existing path that is neither a directory nor a file separates them. |
| EnvArgs.ValidArgsTest | src/minigrep_args.rs:53-63 | `new("query", "test.txt")` succeeds with those values. |
| EnvArgs.PathNotFoundTest | src/minigrep_args.rs:65-80 | The empty path gives `PathNotFound`. |
| EnvArgs.WhitespaceQueryTest | src/minigrep_args.rs:82-97 | `"query query"` gives `QueryWhitespace`. |

## Left out

- **Reading.** The `Read`/`take`/`read_to_string` plumbing and `set_limit` (src/lib.rs:44-45, 52, 92-93) are not modelled: the model takes the whole input as a byte sequence. The only read failure modelled is the one the one-byte chunks cause for a non-ASCII byte. Other I/O errors cannot arise from a sequence.
- **Buffer capacities.** `BUF_SIZE` matters only through one-byte reads. `CURR_LINE_SIZE` is a capacity hint with no effect on behaviour.
- **`Utf8Error`.** The datatype keeps this variant, but no outcome produces it: the buffers are all ASCII (see `NeverUtf8Error`).
- **Traversal.** `run`, `search_file`, `search_dir` and `search_stdin` (src/lib.rs:15-35, 102-139) walk the file system and stdin, and they are not part of this model. Their tests need files on disk.
- **Report wording and the write path.** The exact text of `Debug::fmt` is not modelled. Neither are failures of `writeln!`.
- Results.MinigrepResults.Report: states the summary line by line, and the counts, kinds and headers of the sections, but not the order of the per-file sections. That order follows the hash map's iteration order, which is unspecified.
- **Path comparison beyond Unix.** `Paths.Components` follows the Unix rules of `Path::components`. Windows prefixes and `\` separators are not modelled. Ignored directories and the file-system probes take the path string as given.
- **Non-Unicode arguments.** `env::args()` panics on an argument that is not valid Unicode (src/minigrep_args.rs:23). Arguments are modelled as `string`s, which cannot be invalid, so that panic is not modelled.
- **Filesystem probes.** `try_exists`, `is_dir` and `is_file` are inputs (`Paths.FileSystem`), not modelled. An error from `try_exists` counts as "does not exist", as `is_ok_and` makes it.
- **Empty path in the tests.** The tests that pass the empty path assume the file system reports it as absent (a precondition of `Args.InaccessiblePathTest` and `EnvArgs.PathNotFoundTest`).
- **Version drift.** The files come from different revisions:
  - src/lib.rs calls `MinigrepArgs::build(.., &[..])`, `set_flags`, `paths()`, `quiet()`, `recursive()` and `ignore_case()`, which src/args.rs does not have. These calls are not modelled.
  - src/args.rs imports `MinigrepArgsError` from a module that does not define it. `Args.ArgsError` is that type, with the four variants src/args.rs uses.
- **src/main.rs, the `HELP` text and the error message strings** (src/error.rs, src/minigrep_error.rs) are not part of this model; only the error variants are used.

=== FILE: args.dfy ===
/** The argument checks of src/args.rs: a query and a path taken from a sequence of strings. */
module Args {
  import opened Wrappers
  import opened Whitespace
  import opened Paths

  /** The errors src/args.rs raises. */
  datatype ArgsError = QueryMissing | PathMissing | QueryWhitespace | PathInaccessible(path: Path)

  /** A query and a path; `query()` and `path()` read these fields. */
  datatype MinigrepArgs = MinigrepArgs(query: string, path: Path)

  /**
   * The path exists and is a directory or a file: a path whose existence
   * check fails, or one that is neither, is refused.
   */
  predicate Accessible(fs: FileSystem, p: Path): (r: bool)
    ensures r ==> fs.pathExists(p)
    ensures !fs.isDir(p) && !fs.isFile(p) ==> !r
  {
    fs.pathExists(p) && (fs.isDir(p) || fs.isFile(p))
  }

  /**
   * Rejects a query of two or more words, then a path that cannot be
   * accessed; otherwise hands the arguments back unchanged.
   */
  function Validate(args: MinigrepArgs, fs: FileSystem): (r: Result<MinigrepArgs, ArgsError>)
    ensures r.Ok? <==> !SeparatedWords(args.query) && Accessible(fs, args.path)
    ensures r.Ok? ==> r.value == args
    ensures SeparatedWords(args.query) ==> r == Err(QueryWhitespace)
    ensures r.Err? && !SeparatedWords(args.query) ==> r.error == PathInaccessible(args.path)
  {
    if HasSecondWord(args.query) then Err(QueryWhitespace)
    else if !fs.pathExists(args.path) || !(fs.isDir(args.path) || fs.isFile(args.path)) then Err(PathInaccessible(args.path))
    else Ok(args)
  }

  /** The test-only constructor: validates the given query and path. */
  function Build(query: string, path: Path, fs: FileSystem): (r: Result<MinigrepArgs, ArgsError>)
    ensures r.Ok? ==> r.value.query == query && r.value.path == path
  {
    Validate(MinigrepArgs(query, path), fs)
  }

  /**
   * Takes the query and then the path from the front of `args` and
   * validates them; the second component is what is left of `args`.
   */
  function FromStrings(args: seq<string>, fs: FileSystem): (r: (Result<MinigrepArgs, ArgsError>, seq<string>))
    ensures |args| == 0 ==> r.0 == Err(QueryMissing)
    ensures |args| == 1 ==> r.0 == Err(PathMissing)
    ensures |args| >= 2 ==> r.0 == Validate(MinigrepArgs(args[0], args[1]), fs)
    ensures r.1 == args[if |args| < 2 then |args| else 2..]
  {
    if |args| == 0 then (Err(QueryMissing), args)
    else if |args| == 1 then (Err(PathMissing), args[1..])
    else (Validate(MinigrepArgs(args[0], args[1]), fs), args[2..])
  }

  /** Parsing succeeds exactly when a one-word query and an accessible path come first, and returns them unchanged. */
  lemma FromStringsOk(args: seq<string>, fs: FileSystem)
    ensures FromStrings(args, fs).0.Ok? <==>
      |args| >= 2 && !SeparatedWords(args[0]) && Accessible(fs, args[1])
    ensures FromStrings(args, fs).0.Ok? ==> FromStrings(args, fs).0.value == MinigrepArgs(args[0], args[1])
  {
  }

  /**
   * The checks run in order: a missing query, a missing path, a multi-word
   * query, an inaccessible path; each error implies every earlier check passed.
   */
  lemma ErrorOrder(args: seq<string>, fs: FileSystem)
    ensures FromStrings(args, fs).0 == Err(QueryMissing) <==> |args| == 0
    ensures FromStrings(args, fs).0 == Err(PathMissing) <==> |args| == 1
    ensures FromStrings(args, fs).0 == Err(QueryWhitespace) <==> |args| >= 2 && SeparatedWords(args[0])
    ensures FromStrings(args, fs).0.Err? && FromStrings(args, fs).0.error.PathInaccessible? <==>
      |args| >= 2 && !SeparatedWords(args[0]) && !Accessible(fs, args[1])
  {
  }

  /** Only the first two strings are consumed; anything after them is left untouched. */
  lemma ExtraArgsIgnored(args: seq<string>, extra: seq<string>, fs: FileSystem)
    requires |args| >= 2
    ensures FromStrings(args + extra, fs).0 == FromStrings(args, fs).0
    ensures FromStrings(args + extra, fs).1 == FromStrings(args, fs).1 + extra
  {
    assert (args + extra)[0] == args[0] && (args + extra)[1] == args[1];
    assert (args + extra)[2..] == args[2..] + extra;
  }

  /** A single word passes the whitespace check even with whitespace around it. */
  lemma {:induction false} PaddedWordIsOneWord(before: string, word: string, after: string)
    requires IsWord(word)
    requires forall i :: 0 <= i < |before| ==> IsWhitespace(before[i])
    requires forall i :: 0 <= i < |after| ==> IsWhitespace(after[i])
    ensures !HasSecondWord(before + word + after)
  {
    var s := before + word + after;
    var w := |before| + |word|;
    assert forall i :: 0 <= i < |before| ==> IsWhitespace(s[i]);
    assert forall i :: |before| <= i < w ==> s[i] == word[i - |before|];
    assert forall i :: w <= i < |s| ==> IsWhitespace(s[i]) by {
      forall i | w <= i < |s| ensures IsWhitespace(s[i]) {
        assert s[i] == after[i - w];
      }
    }
  }

  /** The tests of src/args.rs. */
  lemma ValidArgsTest(fs: FileSystem)
    requires Accessible(fs, "test.txt")
    ensures Build("query", "test.txt", fs) == Ok(MinigrepArgs("query", "test.txt"))
    ensures FromStrings(["query", "test.txt"], fs).0 == Ok(MinigrepArgs("query", "test.txt"))
  {
    PaddedWordIsOneWord("", "query", "");
    assert "" + "query" + "" == "query";
  }

  lemma InaccessiblePathTest(fs: FileSystem)
    requires !fs.pathExists("")
    ensures Build("query", "", fs) == Err(PathInaccessible(""))
  {
    PaddedWordIsOneWord("", "query", "");
    assert "" + "query" + "" == "query";
  }

  lemma WhitespaceQueryTest(fs: FileSystem)
    ensures Build("query query", "test.txt", fs) == Err(QueryWhitespace)
  {
    assert SeparatedAt("query query", 0, 5, 6);
  }
}

=== FILE: bytes.dfy ===
/** Bytes and the ASCII helpers of Rust's `u8` that the matcher uses. */
module Bytes {
  /** An unsigned 8-bit value (Rust `u8`). */
  type Byte = b: int | 0 <= b < 256

  /** `u8::is_ascii` */
  predicate IsAscii(b: Byte) {
    b < 128
  }

  /** A byte is ASCII exactly when its high bit is clear, so it is a whole UTF-8 character on its own. */
  lemma AsciiHighBit(b: Byte)
    ensures IsAscii(b) <==> (b as bv8) & 0x80 == 0
  {
  }

  predicate AllAscii(s: seq<Byte>) {
    forall i :: 0 <= i < |s| ==> IsAscii(s[i])
  }

  /** `u8::to_ascii_lowercase`: maps 'A'..='Z' to 'a'..='z', every other byte to itself. */
  function ToAsciiLowercase(b: Byte): (r: Byte)
    ensures IsAscii(r) <==> IsAscii(b)
    ensures 'A' as int <= b <= 'Z' as int ==> r == b + 32
    ensures !('A' as int <= b <= 'Z' as int) ==> r == b
  {
    if 'A' as int <= b <= 'Z' as int then b + 32 else b
  }

  /** `u8::eq_ignore_ascii_case` */
  predicate EqIgnoreAsciiCase(a: Byte, b: Byte) {
    ToAsciiLowercase(a) == ToAsciiLowercase(b)
  }

  /** Two bytes are equal ignoring ASCII case exactly when they are equal or the same letter in the two cases. */
  lemma EqIgnoreAsciiCaseCases(a: Byte, b: Byte)
    ensures EqIgnoreAsciiCase(a, b) <==>
      a == b || ('A' as int <= a <= 'Z' as int && b == a + 32) || ('A' as int <= b <= 'Z' as int && a == b + 32)
  {
  }

  predicate IsAsciiText(s: string) {
    forall i :: 0 <= i < |s| ==> s[i] < 128 as char
  }

  /** The bytes of an ASCII string (its UTF-8 encoding, which for ASCII is one byte per char). */
  function Encode(s: string): (r: seq<Byte>)
    requires IsAsciiText(s)
    ensures |r| == |s| && AllAscii(r)
    ensures forall i :: 0 <= i < |s| ==> r[i] == s[i] as int
  {
    seq(|s|, i requires 0 <= i < |s| => s[i] as int)
  }

  /** `str::from_utf8` on bytes that are all ASCII: one char per byte. */
  function Decode(s: seq<Byte>): (r: string)
    requires AllAscii(s)
    ensures |r| == |s| && IsAsciiText(r)
    ensures forall i :: 0 <= i < |s| ==> r[i] as int == s[i]
  {
    seq(|s|, i requires 0 <= i < |s| => s[i] as char)
  }

  /** Encoding works character by character, so it distributes over concatenation. */
  lemma EncodeAppend(s: string, t: string)
    requires IsAsciiText(s) && IsAsciiText(t)
    ensures IsAsciiText(s + t) && Encode(s + t) == Encode(s) + Encode(t)
  {
  }

  /** Decoding the bytes of an ASCII string gives the string back. */
  lemma DecodeEncode(s: string)
    requires IsAsciiText(s)
    ensures Decode(Encode(s)) == s
  {
  }
}

=== FILE: minigrep_args.dfy ===
/**
 * The argument checks of src/minigrep_args.rs: the query and the path are
 * the two items after the program name, and the path need only exist.
 */
module EnvArgs {
  import opened Wrappers
  import opened Whitespace
  import opened Paths
  import Args

  /** The errors of src/minigrep_error.rs:31-36. */
  datatype MinigrepArgsError = QueryMissing | PathMissing | QueryWhitespace | PathNotFound(path: Path)

  /** A query and a path; `query()` and `path()` read these fields. */
  datatype MinigrepArgs = MinigrepArgs(query: string, path: Path)

  /**
   * Rejects a query of two or more words, then a path that does not exist;
   * otherwise hands the arguments back unchanged.
   */
  function Validate(args: MinigrepArgs, fs: FileSystem): (r: Result<MinigrepArgs, MinigrepArgsError>)
    ensures r.Ok? <==> !SeparatedWords(args.query) && fs.pathExists(args.path)
    ensures r.Ok? ==> r.value == args
    ensures SeparatedWords(args.query) ==> r == Err(QueryWhitespace)
    ensures r.Err? && !SeparatedWords(args.query) ==> r.error == PathNotFound(args.path)
  {
    if HasSecondWord(args.query) then Err(QueryWhitespace)
    else if !fs.pathExists(args.path) then Err(PathNotFound(args.path))
    else Ok(args)
  }

  /** The test-only constructor: validates the given query and path. */
  function New(query: string, path: Path, fs: FileSystem): (r: Result<MinigrepArgs, MinigrepArgsError>)
    ensures r.Ok? ==> r.value.query == query && r.value.path == path
  {
    Validate(MinigrepArgs(query, path), fs)
  }

  /** Skips the program name `argv[0]`, then takes the query and the path and validates them. */
  function FromEnvArgs(argv: seq<string>, fs: FileSystem): (r: Result<MinigrepArgs, MinigrepArgsError>)
    ensures |argv| <= 1 ==> r == Err(QueryMissing)
    ensures |argv| == 2 ==> r == Err(PathMissing)
    ensures |argv| >= 3 ==> r == Validate(MinigrepArgs(argv[1], argv[2]), fs)
  {
    var args := if |argv| == 0 then [] else argv[1..];
    if |args| == 0 then Err(QueryMissing)
    else if |args| == 1 then Err(PathMissing)
    else Validate(MinigrepArgs(args[0], args[1]), fs)
  }

  /**
   * Parsing succeeds exactly when the two items after the program name are
   * a one-word query and an existing path, and returns them unchanged.
   */
  lemma FromEnvArgsOk(argv: seq<string>, fs: FileSystem)
    ensures FromEnvArgs(argv, fs).Ok? <==>
      |argv| >= 3 && !SeparatedWords(argv[1]) && fs.pathExists(argv[2])
    ensures FromEnvArgs(argv, fs).Ok? ==> FromEnvArgs(argv, fs).value == MinigrepArgs(argv[1], argv[2])
  {
  }

  /** The checks run in order; each error implies every earlier check passed. */
  lemma ErrorOrder(argv: seq<string>, fs: FileSystem)
    ensures FromEnvArgs(argv, fs) == Err(QueryMissing) <==> |argv| <= 1
    ensures FromEnvArgs(argv, fs) == Err(PathMissing) <==> |argv| == 2
    ensures FromEnvArgs(argv, fs) == Err(QueryWhitespace) <==> |argv| >= 3 && SeparatedWords(argv[1])
    ensures FromEnvArgs(argv, fs).Err? && FromEnvArgs(argv, fs).error.PathNotFound? <==>
      |argv| >= 3 && !SeparatedWords(argv[1]) && !fs.pathExists(argv[2])
  {
  }

  /**
   * The two revisions agree on everything but the path: the check of
   * src/args.rs also demands a directory or a file, so whatever it accepts
   * this one accepts too, and both reject the same queries.
   */
  lemma RevisionsCompared(query: string, path: Path, fs: FileSystem)
    ensures Args.Validate(Args.MinigrepArgs(query, path), fs).Ok? ==> Validate(MinigrepArgs(query, path), fs).Ok?
    ensures Args.Validate(Args.MinigrepArgs(query, path), fs) == Err(Args.QueryWhitespace)
        <==> Validate(MinigrepArgs(query, path), fs) == Err(QueryWhitespace)
    ensures fs.pathExists(path) && !fs.isDir(path) && !fs.isFile(path) && !SeparatedWords(query) ==>
      Validate(MinigrepArgs(query, path), fs).Ok? && Args.Validate(Args.MinigrepArgs(query, path), fs).Err?
  {
  }

  /** The tests of src/minigrep_args.rs. */
  lemma ValidArgsTest(fs: FileSystem)
    requires fs.pathExists("test.txt")
    ensures New("query", "test.txt", fs) == Ok(MinigrepArgs("query", "test.txt"))
  {
    Args.PaddedWordIsOneWord("", "query", "");
    assert "" + "query" + "" == "query";
  }

  lemma PathNotFoundTest(fs: FileSystem)
    requires !fs.pathExists("")
    ensures New("query", "", fs) == Err(PathNotFound(""))
  {
    Args.PaddedWordIsOneWord("", "query", "");
    assert "" + "query" + "" == "query";
  }

  lemma WhitespaceQueryTest(fs: FileSystem)
    ensures New("query query", "test.txt", fs) == Err(QueryWhitespace)
  {
    assert SeparatedAt("query query", 0, 5, 6);
  }
}

=== FILE: paths.dfy ===
/**
 * Paths, the way Rust's `Path` on Unix compares them, and the file-system
 * probes the argument checks consult.
 */
module Paths {
  type Path = string

  /**
   * What the file system reports about each path: whether `try_exists`
   * answers `Ok(true)`, whether `is_dir` holds, and whether `is_file` holds.
   */
  datatype FileSystem = FileSystem(pathExists: Path -> bool, isDir: Path -> bool, isFile: Path -> bool)

  /** One component of a path, as `Path::components` yields it. */
  datatype Component = RootDir | CurDir | ParentDir | Normal(name: string)

  /** A name a `Normal` component can carry: not empty, not `.` or `..`, no separator. */
  predicate NormalName(n: string) {
    n != "" && n != "." && n != ".." && '/' !in n
  }

  /** A component that can follow the first one: `..` or a plain name. */
  predicate InnerComponent(c: Component) {
    c == ParentDir || (c.Normal? && NormalName(c.name))
  }

  /** The component one separator-free part contributes: none for an empty part or `.`. */
  function PartComponent(part: string): (r: seq<Component>)
    requires '/' !in part
    ensures |r| <= 1 && forall i :: 0 <= i < |r| ==> InnerComponent(r[i])
    ensures r == [] <==> part == "" || part == "."
  {
    if part == "" || part == "." then [] else if part == ".." then [ParentDir] else [Normal(part)]
  }

  /**
   * The components of the rest `s` of a path, `part` being the part read so
   * far: separators end parts, so repeated or trailing separators and `.`
   * parts contribute nothing.
   */
  function Body(s: string, part: string): (r: seq<Component>)
    requires '/' !in part
    ensures forall i :: 0 <= i < |r| ==> InnerComponent(r[i])
    decreases |s|
  {
    if s == [] then PartComponent(part)
    else if s[0] == '/' then PartComponent(part) + Body(s[1..], [])
    else Body(s[1..], part + [s[0]])
  }

  /** The path starts at the root. */
  predicate HasRoot(p: Path) {
    |p| > 0 && p[0] == '/'
  }

  /** A relative path whose first part is `.` keeps it as a `CurDir` component. */
  predicate IncludesCurDir(p: Path) {
    !HasRoot(p) && |p| > 0 && p[0] == '.' && (|p| == 1 || p[1] == '/')
  }

  /** `Path::components` on Unix. */
  function Components(p: Path): (r: seq<Component>)
    ensures |r| > 0 && r[0] == RootDir <==> HasRoot(p)
    ensures |r| > 0 && r[0] == CurDir <==> IncludesCurDir(p)
    ensures forall i :: 0 < i < |r| ==> InnerComponent(r[i])
  {
    (if HasRoot(p) then [RootDir] else []) + (if IncludesCurDir(p) then [CurDir] else []) + Body(p, [])
  }

  /**
   * Two paths are equal, and hash alike, as `PathBuf`s: they have the same
   * components. Equal spellings are the same path, and an absolute path is
   * never the same as a relative one.
   */
  predicate SamePath(a: Path, b: Path): (r: bool)
    ensures a == b ==> r
    ensures r ==> (HasRoot(a) <==> HasRoot(b)) && (IncludesCurDir(a) <==> IncludesCurDir(b))
  {
    Components(a) == Components(b)
  }

  /** A separator splits the components of the text around it. */
  lemma {:induction false} BodySplit(s: string, t: string, part: string)
    requires '/' !in part
    ensures Body(s + ['/'] + t, part) == Body(s, part) + Body(t, [])
    decreases |s|
  {
    if s == [] {
      assert (s + ['/'] + t)[1..] == t;
    } else if s[0] == '/' {
      assert (s + ['/'] + t)[1..] == s[1..] + ['/'] + t;
      BodySplit(s[1..], t, []);
    } else {
      assert (s + ['/'] + t)[1..] == s[1..] + ['/'] + t;
      BodySplit(s[1..], t, part + [s[0]]);
    }
  }

  /** Paths that agree on their root, their leading `.` and their body are the same path. */
  lemma SameParts(p: Path, q: Path)
    requires HasRoot(p) == HasRoot(q) && IncludesCurDir(p) == IncludesCurDir(q)
    requires Body(p, []) == Body(q, [])
    ensures SamePath(p, q)
  {
  }

  /** Inserting text after the first part of `a` keeps the path's first two characters' meaning. */
  lemma SameStart(a: Path, x: string, y: string)
    requires |x| > 0 && |y| > 0 && x[0] == '/' && y[0] == '/'
    ensures HasRoot(a + x) == HasRoot(a + y) && IncludesCurDir(a + x) == IncludesCurDir(a + y)
  {
    var p, q := a + x, a + y;
    if |a| == 0 {
      assert p[0] == q[0] == '/';
    } else if |a| == 1 {
      assert p[0] == q[0] == a[0] && p[1] == q[1] == '/';
    } else {
      assert p[0] == q[0] == a[0] && p[1] == q[1] == a[1];
    }
  }

  /** A doubled separator names the same path as a single one. */
  lemma RepeatedSeparator(a: Path, b: Path)
    ensures SamePath(a + "//" + b, a + "/" + b)
  {
    var p, q := a + "//" + b, a + "/" + b;
    var rest := "/" + b;
    assert p == a + ['/'] + rest && q == a + ['/'] + b;
    BodySplit(a, rest, []);
    BodySplit(a, b, []);
    assert rest[1..] == b;
    assert Body(rest, []) == Body(b, []);
    SameStart(a, "//" + b, "/" + b);
    SameParts(p, q);
  }

  /** A `.` between two separators names the same path as a single separator. */
  lemma CurDirInside(a: Path, b: Path)
    ensures SamePath(a + "/./" + b, a + "/" + b)
  {
    var p, q := a + "/./" + b, a + "/" + b;
    var rest := "./" + b;
    assert p == a + ['/'] + rest && q == a + ['/'] + b;
    BodySplit(a, rest, []);
    BodySplit(a, b, []);
    assert rest[1..] == "/" + b && ("/" + b)[1..] == b;
    assert Body(rest, []) == Body(b, []);
    SameStart(a, "/./" + b, "/" + b);
    SameParts(p, q);
  }

  /** A trailing separator after a non-empty path changes nothing. */
  lemma TrailingSeparator(a: Path)
    requires a != ""
    ensures SamePath(a + "/", a)
  {
    assert a + "/" == a + ['/'] + [];
    BodySplit(a, [], []);
    assert |a| > 1 ==> (a + "/")[1] == a[1];
  }

  /** A leading `.` is kept: `./a` and `a` are different paths. */
  lemma LeadingCurDirKept()
    ensures !SamePath("./a", "a")
  {
    assert Components("./a")[0] == CurDir;
    assert !IncludesCurDir("a");
  }
}

=== FILE: results.dfy ===
/**
 * The result aggregator of src/results.rs: the findings of every file
 * searched, keyed by path, the directories skipped, and the report built
 * from them.
 */
module Results {
  import opened Paths

  /**
   * One line of the report. The wording is left out; each line keeps only
   * its kind and the values it shows.
   */
  datatype ReportLine =
    | IgnoringHeader(dirs: nat)
    | IgnoredDir(dir: Path)
    | FilesSearched(files: nat)
    | TotalLinesMatched(total: nat)
    | Blank
    | NoResultsIn(file: Path)
    | FileHeader(file: Path)
    | Finding(text: string)

  /** No two keys of `m` name the same path. */
  predicate DistinctPaths(m: map<Path, seq<string>>) {
    forall a, b :: a in m && b in m && SamePath(a, b) ==> a == b
  }

  /** Some key of a non-empty map; which one is left open, like a hash map's iteration order. */
  ghost function AnyKey(m: map<Path, seq<string>>): (k: Path)
    requires m != map[]
    ensures k in m
  {
    var k :| k in m; k
  }

  /** The sum of the lengths of all lists in `m`. */
  ghost function TotalLines(m: map<Path, seq<string>>): nat
    decreases m.Keys
  {
    if m == map[] then 0
    else
      var k := AnyKey(m);
      |m[k]| + TotalLines(m - {k})
  }

  /** The sum does not depend on which key is taken out first. */
  lemma {:induction false} TotalLinesRemove(m: map<Path, seq<string>>, k: Path)
    requires k in m
    ensures TotalLines(m) == |m[k]| + TotalLines(m - {k})
    decreases m.Keys
  {
    var j := AnyKey(m);
    if j != k {
      var mj, mk := m - {j}, m - {k};
      TotalLinesRemove(mj, k);
      TotalLinesRemove(mk, j);
      assert mj - {k} == mk - {j};
    }
  }

  /** Adding `f` to the entry of `p`, as `add_findings` does, raises the total by `|f|`. */
  lemma TotalLinesAfterAdd(m: map<Path, seq<string>>, p: Path, f: seq<string>)
    ensures TotalLines(m[p := (if p in m then m[p] else []) + f]) == TotalLines(m) + |f|
  {
    var m' := m[p := (if p in m then m[p] else []) + f];
    TotalLinesRemove(m', p);
    assert m' - {p} == m - {p};
    if p in m {
      TotalLinesRemove(m, p);
    } else {
      assert m - {p} == m;
    }
  }

  /** In a map whose keys name distinct paths, at most one key names the path `p`. */
  lemma OnlyKey(m: map<Path, seq<string>>, k: Path, p: Path)
    requires DistinctPaths(m) && k in m && SamePath(k, p)
    ensures forall j :: j in m && SamePath(j, p) ==> j == k
  {
    forall j | j in m && SamePath(j, p)
      ensures j == k
    {
      assert SamePath(j, k);
    }
  }

  /** Appending to the list of an existing key keeps the keys and the other paths apart. */
  lemma ExtendKey(m: map<Path, seq<string>>, k: Path, f: seq<string>)
    requires k in m && DistinctPaths(m)
    ensures DistinctPaths(m[k := m[k] + f])
    ensures |m[k := m[k] + f]| == |m|
    ensures TotalLines(m[k := m[k] + f]) == TotalLines(m) + |f|
  {
    TotalLinesAfterAdd(m, k, f);
    assert m[k := m[k] + f].Keys == m.Keys;
  }

  /** A key naming a path no key names yet adds one file and keeps the paths apart. */
  lemma InsertKey(m: map<Path, seq<string>>, p: Path, f: seq<string>)
    requires DistinctPaths(m) && forall k :: k in m ==> !SamePath(k, p)
    ensures DistinctPaths(m[p := f])
    ensures |m[p := f]| == |m| + 1
    ensures TotalLines(m[p := f]) == TotalLines(m) + |f|
  {
    assert p !in m by {
      if p in m {
        assert SamePath(p, p);
      }
    }
    TotalLinesAfterAdd(m, p, f);
    assert [] + f == f;
    assert m[p := f].Keys == m.Keys + {p};
    forall a, b | a in m[p := f] && b in m[p := f] && SamePath(a, b)
      ensures a == b
    {
      if a == p && b != p {
        assert SamePath(b, p);
      }
    }
  }

  /** A line the per-file sections write: a separator, a file header or a finding. */
  predicate SectionLine(line: ReportLine) {
    line.Blank? || line.NoResultsIn? || line.FileHeader? || line.Finding?
  }

  /** The number of summary lines: the two counts, after the skipped directories and their header when there are any. */
  function SummarySize(dirCount: nat): nat {
    if dirCount == 0 then 2 else dirCount + 3
  }

  /** The number of lines of `lines` that are findings. */
  function FindingCount(lines: seq<ReportLine>): nat {
    if lines == [] then 0
    else FindingCount(lines[..|lines| - 1]) + (if lines[|lines| - 1].Finding? then 1 else 0)
  }

  /** The number of blank separator lines of `lines`. */
  function BlankCount(lines: seq<ReportLine>): nat {
    if lines == [] then 0
    else BlankCount(lines[..|lines| - 1]) + (if lines[|lines| - 1].Blank? then 1 else 0)
  }

  /** Lines that only the summary holds: no findings and no separators among them. */
  predicate SummaryOnly(lines: seq<ReportLine>) {
    forall i :: 0 <= i < |lines| ==> !lines[i].Finding? && !lines[i].Blank?
  }

  lemma {:induction false} CountsAppend(a: seq<ReportLine>, b: seq<ReportLine>)
    ensures FindingCount(a + b) == FindingCount(a) + FindingCount(b)
    ensures BlankCount(a + b) == BlankCount(a) + BlankCount(b)
    decreases |b|
  {
    if b == [] {
      assert a + b == a;
    } else {
      var b0 := b[..|b| - 1];
      CountsAppend(a, b0);
      assert (a + b)[..|a + b| - 1] == a + b0;
    }
  }

  lemma {:induction false} SummaryCounts(lines: seq<ReportLine>)
    requires SummaryOnly(lines)
    ensures FindingCount(lines) == 0 && BlankCount(lines) == 0
    decreases |lines|
  {
    if lines != [] {
      SummaryCounts(lines[..|lines| - 1]);
    }
  }

  /** The lines written for one file with the given findings. */
  lemma FileLinesCounts(header: seq<ReportLine>, list: seq<string>, written: seq<ReportLine>)
    requires SummaryOnly(header)
    requires |written| == |list| && forall i :: 0 <= i < |list| ==> written[i] == Finding(list[i])
    ensures FindingCount([Blank] + header + written) == |list|
    ensures BlankCount([Blank] + header + written) == 1
  {
    WrittenCounts(written);
    SummaryCounts(header);
    CountsAppend([Blank], header);
    CountsAppend([Blank] + header, written);
    assert [Blank][..0] == [];
  }

  /** The header line of one file: "no results" for an empty list, the path otherwise. */
  function HeaderLine(file: Path, list: seq<string>): ReportLine {
    if list == [] then NoResultsIn(file) else FileHeader(file)
  }

  /** One finding line per entry of `list`, in order. */
  function FindingLines(list: seq<string>): (r: seq<ReportLine>)
    ensures |r| == |list| && forall i :: 0 <= i < |list| ==> r[i] == Finding(list[i])
  {
    seq(|list|, i requires 0 <= i < |list| => Finding(list[i]))
  }

  /** The lines written for one file: a separator, the header unless `quiet`, the findings. */
  function SectionOf(quiet: bool, file: Path, list: seq<string>): seq<ReportLine> {
    [Blank] + (if quiet then [] else [HeaderLine(file, list)]) + FindingLines(list)
  }

  /** A section holds one finding line per entry of the list and one separator. */
  lemma SectionCounts(quiet: bool, file: Path, list: seq<string>)
    ensures FindingCount(SectionOf(quiet, file, list)) == |list|
    ensures BlankCount(SectionOf(quiet, file, list)) == 1
  {
    FileLinesCounts(if quiet then [] else [HeaderLine(file, list)], list, FindingLines(list));
  }

  /** A section is the separator, the header unless `quiet`, then the findings in order. */
  lemma SectionLayout(quiet: bool, file: Path, list: seq<string>)
    ensures |SectionOf(quiet, file, list)| == |list| + (if quiet then 1 else 2)
    ensures SectionOf(quiet, file, list)[0] == Blank
    ensures !quiet ==> SectionOf(quiet, file, list)[1] == HeaderLine(file, list)
    ensures forall i :: 0 <= i < |list| ==> SectionOf(quiet, file, list)[(if quiet then 1 else 2) + i] == Finding(list[i])
  {
    var h: seq<ReportLine> := if quiet then [] else [HeaderLine(file, list)];
    var w := FindingLines(list);
    var r := [Blank] + h + w;
    assert r == SectionOf(quiet, file, list);
    assert |r| == 1 + |h| + |w|;
    forall i | 0 <= i < |list| ensures r[1 + |h| + i] == Finding(list[i]) {
      assert r[1 + |h| + i] == w[i];
    }
  }

  /** Every line of a section is a section line; with `quiet`, only separators and findings. */
  lemma SectionKinds(quiet: bool, file: Path, list: seq<string>)
    ensures var r := SectionOf(quiet, file, list);
      (forall i :: 0 <= i < |r| ==> SectionLine(r[i])) &&
      (quiet ==> forall i :: 0 <= i < |r| ==> r[i].Blank? || r[i].Finding?)
  {
    var header := if quiet then [] else [HeaderLine(file, list)];
    var r := [Blank] + header + FindingLines(list);
    forall i | 0 <= i < |r| ensures SectionLine(r[i]) && (quiet ==> r[i].Blank? || r[i].Finding?) {
      if i > |header| {
        assert r[i] == FindingLines(list)[i - 1 - |header|];
      }
    }
  }

  /** What a file's section holds, stated on its lines. */
  lemma SectionFacts(quiet: bool, file: Path, list: seq<string>, lines: seq<ReportLine>)
    requires lines == SectionOf(quiet, file, list)
    ensures FindingCount(lines) == |list| && BlankCount(lines) == 1
    ensures quiet ==> |lines| == |list| + 1 && lines[0] == Blank
    ensures quiet ==> forall i :: 0 <= i < |list| ==> lines[i + 1] == Finding(list[i])
    ensures !quiet && list == [] ==> NoResultsIn(file) in lines
    ensures !quiet && list != [] ==> FileHeader(file) in lines
    ensures !quiet ==> |lines| == |list| + 2 && lines[0] == Blank
    ensures !quiet ==> lines[1] == if list == [] then NoResultsIn(file) else FileHeader(file)
    ensures !quiet ==> forall i :: 0 <= i < |list| ==> lines[i + 2] == Finding(list[i])
  {
    SectionCounts(quiet, file, list);
    SectionLayout(quiet, file, list);
    if quiet {
      forall i | 0 <= i < |list| ensures lines[i + 1] == Finding(list[i]) {
        assert lines[1 + i] == SectionOf(quiet, file, list)[(if quiet then 1 else 2) + i];
      }
    } else {
      forall i | 0 <= i < |list| ensures lines[i + 2] == Finding(list[i]) {
        assert lines[2 + i] == SectionOf(quiet, file, list)[(if quiet then 1 else 2) + i];
      }
      assert lines[1] in lines;
    }
  }

  /**
   * What the sections written so far hold, `rest` being the files still to
   * write: the counts add up and, unless `quiet`, every file written has
   * its header.
   */
  ghost predicate SectionsSoFar(quiet: bool, findings: map<Path, seq<string>>, rest: map<Path, seq<string>>, body: seq<ReportLine>) {
    && rest.Keys <= findings.Keys
    && (forall p :: p in rest ==> rest[p] == findings[p])
    && FindingCount(body) + TotalLines(rest) == TotalLines(findings)
    && BlankCount(body) + |rest| == |findings|
    && |body| + |rest| + TotalLines(rest) + (if quiet then 0 else |rest|) == |findings| + TotalLines(findings) + (if quiet then 0 else |findings|)
    && (forall i :: 0 <= i < |body| ==> SectionLine(body[i]))
    && (quiet ==> forall i :: 0 <= i < |body| ==> body[i].Blank? || body[i].Finding?)
    && (!quiet ==> forall p :: p in findings && p !in rest ==> HeaderLine(p, findings[p]) in body)
  }

  /** Writing the section of one more file keeps `SectionsSoFar`. */
  lemma SectionsStep(quiet: bool, findings: map<Path, seq<string>>, rest: map<Path, seq<string>>, body: seq<ReportLine>, p: Path)
    requires SectionsSoFar(quiet, findings, rest, body) && p in rest
    ensures SectionsSoFar(quiet, findings, rest - {p}, body + SectionOf(quiet, p, rest[p]))
  {
    var section := SectionOf(quiet, p, rest[p]);
    var body' := body + section;
    TotalLinesRemove(rest, p);
    CountsAppend(body, section);
    SectionCounts(quiet, p, rest[p]);
    SectionLayout(quiet, p, rest[p]);
    SectionKinds(quiet, p, rest[p]);
    assert |rest - {p}| == |rest| - 1 by {
      assert (rest - {p}).Keys == rest.Keys - {p};
    }
    forall i | 0 <= i < |body'| ensures SectionLine(body'[i]) && (quiet ==> body'[i].Blank? || body'[i].Finding?) {
      if i >= |body| {
        assert body'[i] == section[i - |body|];
      }
    }
    if !quiet {
      forall q | q in findings && q !in rest - {p} ensures HeaderLine(q, findings[q]) in body' {
        if q == p {
          assert body'[|body| + 1] == section[1];
        } else {
          var i :| 0 <= i < |body| && body[i] == HeaderLine(q, findings[q]);
          assert body'[i] == body[i];
        }
      }
    }
  }

  /** The summary followed by the sections: each part's lines keep their place and their kind. */
  lemma SummaryThenSections(summary: seq<ReportLine>, body: seq<ReportLine>, files: nat, total: nat, dirs: seq<Path>)
    requires SummaryOnly(summary) && |summary| == SummarySize(|dirs|)
    requires dirs != [] ==> summary[0] == IgnoringHeader(|dirs|)
    requires forall i :: 0 <= i < |dirs| ==> summary[i + 1] == IgnoredDir(dirs[i])
    requires summary[|summary| - 2] == FilesSearched(files) && summary[|summary| - 1] == TotalLinesMatched(total)
    requires forall i :: 0 <= i < |body| ==> SectionLine(body[i])
    ensures var lines := summary + body;
      && FindingCount(lines) == FindingCount(body) && BlankCount(lines) == BlankCount(body)
      && lines[|summary| - 2] == FilesSearched(files) && lines[|summary| - 1] == TotalLinesMatched(total)
      && FilesSearched(files) in lines && TotalLinesMatched(total) in lines
      && (forall d :: d in dirs ==> IgnoredDir(d) in lines)
      && (dirs != [] <==> IgnoringHeader(|dirs|) in lines)
      && (forall i :: |summary| <= i < |lines| ==> SectionLine(lines[i]))
      && (forall x :: x in body ==> x in lines)
  {
    var lines := summary + body;
    SummaryCounts(summary);
    CountsAppend(summary, body);
    assert lines[|summary| - 2] == summary[|summary| - 2] && lines[|summary| - 1] == summary[|summary| - 1];
    forall d | d in dirs ensures IgnoredDir(d) in lines {
      var i :| 0 <= i < |dirs| && dirs[i] == d;
      assert lines[i + 1] == summary[i + 1];
    }
    forall i | |summary| <= i < |lines| ensures SectionLine(lines[i]) {
      assert lines[i] == body[i - |summary|];
    }
    if dirs != [] {
      assert lines[0] == summary[0];
    }
  }

  lemma {:induction false} WrittenCounts(written: seq<ReportLine>)
    requires forall i :: 0 <= i < |written| ==> written[i].Finding?
    ensures FindingCount(written) == |written| && BlankCount(written) == 0
    decreases |written|
  {
    if written != [] {
      WrittenCounts(written[..|written| - 1]);
    }
  }

  class MinigrepResults {
    var quiet: bool
    var findings: map<Path, seq<string>>
    var ignoredDirs: seq<Path>

    /** No two keys of the findings name the same path, as in a map keyed by `PathBuf`. */
    predicate Valid()
      reads this
    {
      DistinctPaths(findings)
    }

    /** A fresh aggregator holds no findings and no ignored directories. */
    constructor(quiet: bool)
      ensures Valid()
      ensures this.quiet == quiet && findings == map[] && ignoredDirs == []
    {
      this.quiet := quiet;
      findings := map[];
      ignoredDirs := [];
    }

    /** The findings gathered so far, by path; no two of its keys name the same path. */
    function Findings(): (r: map<Path, seq<string>>)
      reads this
      ensures Valid() ==> DistinctPaths(r)
    {
      findings
    }

    /**
     * Appends `fileFindings` to the entry of the key that names the same path
     * as `filePath`, keeping that key's spelling; when there is none, adds
     * `filePath` as a new key (even for an empty list).
     */
    method AddFindings(filePath: Path, fileFindings: seq<string>)
      requires Valid()
      modifies this
      ensures Valid()
      ensures forall k :: k in old(findings) && SamePath(k, filePath) ==> findings == old(findings)[k := old(findings)[k] + fileFindings]
      ensures (forall k :: k in old(findings) ==> !SamePath(k, filePath)) ==> findings == old(findings)[filePath := fileFindings]
      ensures |findings| == |old(findings)| + (if exists k :: k in old(findings) && SamePath(k, filePath) then 0 else 1)
      ensures TotalLines(findings) == TotalLines(old(findings)) + |fileFindings|
      ensures quiet == old(quiet) && ignoredDirs == old(ignoredDirs)
    {
      if k :| k in findings && SamePath(k, filePath) {
        OnlyKey(findings, k, filePath);
        ExtendKey(findings, k, fileFindings);
        findings := findings[k := findings[k] + fileFindings];
      } else {
        InsertKey(findings, filePath, fileFindings);
        findings := findings[filePath := fileFindings];
      }
    }

    /** Records one more directory that was skipped. */
    method AddIgnoredDir(dirPath: Path)
      requires Valid()
      modifies this
      ensures Valid()
      ensures ignoredDirs == old(ignoredDirs) + [dirPath]
      ensures findings == old(findings) && quiet == old(quiet)
    {
      ignoredDirs := ignoredDirs + [dirPath];
    }

    /** The fold of src/results.rs:53-56: the number of lines matched over all files. */
    method TotalMatched() returns (total: nat)
      ensures total == TotalLines(findings)
    {
      total := 0;
      var rest := findings;
      while rest != map[]
        invariant total + TotalLines(rest) == TotalLines(findings)
        decreases rest.Keys
      {
        var p :| p in rest;
        TotalLinesRemove(rest, p);
        total := total + |rest[p]|;
        rest := rest - {p};
      }
    }

    /** The summary written ahead of the per-file sections unless `quiet` is set. */
    method Summary() returns (lines: seq<ReportLine>)
      ensures SummaryOnly(lines)
      ensures FilesSearched(|findings|) in lines && TotalLinesMatched(TotalLines(findings)) in lines
      ensures ignoredDirs != [] <==> IgnoringHeader(|ignoredDirs|) in lines
      ensures forall i :: 0 <= i < |ignoredDirs| ==> IgnoredDir(ignoredDirs[i]) in lines
      ensures |lines| == SummarySize(|ignoredDirs|)
      ensures ignoredDirs != [] ==> lines[0] == IgnoringHeader(|ignoredDirs|)
      ensures forall i :: 0 <= i < |ignoredDirs| ==> lines[i + 1] == IgnoredDir(ignoredDirs[i])
      ensures lines[|lines| - 2] == FilesSearched(|findings|) && lines[|lines| - 1] == TotalLinesMatched(TotalLines(findings))
    {
      lines := [];
      if ignoredDirs != [] {
        lines := [IgnoringHeader(|ignoredDirs|)];
        for i := 0 to |ignoredDirs|
          invariant |lines| == i + 1 && lines[0] == IgnoringHeader(|ignoredDirs|)
          invariant forall k :: 0 <= k < i ==> lines[k + 1] == IgnoredDir(ignoredDirs[k])
          invariant SummaryOnly(lines)
        {
          lines := lines + [IgnoredDir(ignoredDirs[i])];
        }
      }
      var total := TotalMatched();
      lines := lines + [FilesSearched(|findings|), TotalLinesMatched(total)];
    }

    /**
     * The lines written for one file: a blank separator, then (unless
     * `quiet`) a header that tells an empty list from a non-empty one, then
     * one line per finding.
     */
    method FileSection(file: Path, list: seq<string>) returns (lines: seq<ReportLine>)
      ensures lines == SectionOf(quiet, file, list)
      ensures FindingCount(lines) == |list| && BlankCount(lines) == 1
      ensures quiet ==> |lines| == |list| + 1 && lines[0] == Blank
      ensures quiet ==> forall i :: 0 <= i < |list| ==> lines[i + 1] == Finding(list[i])
      ensures !quiet && list == [] ==> NoResultsIn(file) in lines
      ensures !quiet && list != [] ==> FileHeader(file) in lines
      ensures !quiet ==> |lines| == |list| + 2 && lines[0] == Blank
      ensures !quiet ==> lines[1] == if list == [] then NoResultsIn(file) else FileHeader(file)
      ensures !quiet ==> forall i :: 0 <= i < |list| ==> lines[i + 2] == Finding(list[i])
    {
      var header: seq<ReportLine> := [];
      if !quiet {
        header := if list == [] then [NoResultsIn(file)] else [FileHeader(file)];
      }
      var written: seq<ReportLine> := [];
      for i := 0 to |list|
        invariant |written| == i && forall k :: 0 <= k < i ==> written[k] == Finding(list[k])
      {
        written := written + [Finding(list[i])];
      }
      lines := [Blank] + header + written;
      assert written == FindingLines(list);
      SectionFacts(quiet, file, list, lines);
    }

    /** The per-file sections of the report, one for each path, in an order left open. */
    method Sections() returns (body: seq<ReportLine>)
      ensures FindingCount(body) == TotalLines(findings)
      ensures BlankCount(body) == |findings|
      ensures quiet ==> forall i :: 0 <= i < |body| ==> body[i].Blank? || body[i].Finding?
      ensures !quiet ==> forall p :: p in findings && findings[p] == [] ==> NoResultsIn(p) in body
      ensures !quiet ==> forall p :: p in findings && findings[p] != [] ==> FileHeader(p) in body
      ensures forall i :: 0 <= i < |body| ==> SectionLine(body[i])
      ensures |body| == |findings| + TotalLines(findings) + (if quiet then 0 else |findings|)
    {
      body := [];
      var rest := findings;
      while rest != map[]
        invariant SectionsSoFar(quiet, findings, rest, body)
        decreases rest.Keys
      {
        var p :| p in rest;
        var section := FileSection(p, rest[p]);
        SectionsStep(quiet, findings, rest, body, p);
        body := body + section;
        rest := rest - {p};
      }
    }

    /**
     * The report of `Debug::fmt`: the summary unless `quiet` is set, then the
     * per-file sections. With `quiet` set only separators and findings are
     * written.
     */
    method Report() returns (lines: seq<ReportLine>)
      ensures FindingCount(lines) == TotalLines(findings)
      ensures BlankCount(lines) == |findings|
      ensures quiet ==> forall i :: 0 <= i < |lines| ==> lines[i].Blank? || lines[i].Finding?
      ensures !quiet ==> FilesSearched(|findings|) in lines && TotalLinesMatched(TotalLines(findings)) in lines
      ensures !quiet ==> forall d :: d in ignoredDirs ==> IgnoredDir(d) in lines
      ensures !quiet ==> forall p :: p in findings && findings[p] == [] ==> NoResultsIn(p) in lines
      ensures !quiet ==> forall p :: p in findings && findings[p] != [] ==> FileHeader(p) in lines
      ensures !quiet ==> (ignoredDirs != [] <==> IgnoringHeader(|ignoredDirs|) in lines)
      ensures |lines| == (if quiet then 0 else SummarySize(|ignoredDirs|)) + |findings| + TotalLines(findings) + (if quiet then 0 else |findings|)
      ensures !quiet ==> var k := SummarySize(|ignoredDirs|);
        lines[k - 2] == FilesSearched(|findings|) && lines[k - 1] == TotalLinesMatched(TotalLines(findings))
      ensures forall i :: (if quiet then 0 else SummarySize(|ignoredDirs|)) <= i < |lines| ==> SectionLine(lines[i])
    {
      var summary: seq<ReportLine> := [];
      if !quiet {
        summary := Summary();
      }
      var body := Sections();
      lines := summary + body;
      if quiet {
        assert lines == body;
      } else {
        SummaryThenSections(summary, body, |findings|, TotalLines(findings), ignoredDirs);
      }
    }
  }

  /** The test of src/results.rs: two additions to one path make one entry holding both, in order. */
  method AddTwiceToOnePath() returns (results: MinigrepResults)
    ensures results.Findings() == map["test.txt" := ["finding 1", "finding 2"]]
  {
    var p := "test.txt";
    results := new MinigrepResults(false);
    results.AddFindings(p, ["finding 1"]);
    assert p in results.findings && SamePath(p, p);
    results.AddFindings(p, ["finding 2"]);
    assert results.findings == map[p := ["finding 1"] + ["finding 2"]];
    assert ["finding 1"] + ["finding 2"] == ["finding 1", "finding 2"];
    assert results.findings == map[p := ["finding 1", "finding 2"]];
  }

  /**
   * Two spellings of one path, `dir/name` and `dir//name`, make one entry
   * under the first spelling.
   */
  method TwoSpellingsOfOnePath(dir: Path, name: Path) returns (results: MinigrepResults)
    ensures results.Findings() == map[dir + "/" + name := ["finding 1", "finding 2"]]
  {
    var single, double := dir + "/" + name, dir + "//" + name;
    RepeatedSeparator(dir, name);
    results := new MinigrepResults(false);
    results.AddFindings(single, ["finding 1"]);
    assert single in results.findings && SamePath(single, double);
    results.AddFindings(double, ["finding 2"]);
    assert results.findings == map[single := ["finding 1"] + ["finding 2"]];
    assert ["finding 1"] + ["finding 2"] == ["finding 1", "finding 2"];
  }
}

=== FILE: search.dfy ===
/**
 * The streaming line matcher `search` of src/lib.rs.
 *
 * The source reads its input one byte at a time and keeps five variables
 * across the read loop: the findings, the current-line buffer, the unmatched
 * remainder of the query, and the flags `inside_query` and `query_found`.
 * `State` holds those five (the remainder as a cursor: the remainder is
 * `query[cursor..]`), `Step` is what the loop body does with one byte, and
 * `Scan` folds `Step` over the input. The method `Search` is the loop itself,
 * proved equal to that fold.
 */
module Search {
  import opened Wrappers
  import opened Bytes

  const LF: Byte := 10
  const CR: Byte := 13

  /** The two bytes `\` `n` written into the buffer in place of an embedded newline. */
  const EscapedLF: seq<Byte> := [92, 110]
  /** The two bytes `\` `r` written into the buffer in place of a carriage return. */
  const EscapedCR: seq<Byte> := [92, 114]

  type Line = seq<Byte>

  /** The failures `search` can return (the variants of src/error.rs it uses). */
  datatype IoErrorKind = InvalidData
  datatype SearchError = IoError(kind: IoErrorKind) | Utf8Error

  /** How a call of `search` ends: it returns a `Result`, or it panics. */
  datatype Outcome = Returned(result: Result<seq<string>, SearchError>) | Panicked

  /** The variables of the read loop, between two bytes. */
  datatype State = State(findings: seq<Line>, line: Line, cursor: nat, inside: bool, found: bool)

  const Initial: State := State([], [], 0, false, false)

  /** `str::from_utf8(..).to_string()` applied to each finding. */
  function DecodeAll(lines: seq<Line>): (r: seq<string>)
    requires forall i :: 0 <= i < |lines| ==> AllAscii(lines[i])
    ensures |r| == |lines| && forall i :: 0 <= i < |lines| ==> r[i] == Decode(lines[i])
  {
    seq(|lines|, i requires 0 <= i < |lines| => Decode(lines[i]))
  }

  lemma DecodeAllSnoc(lines: seq<Line>, line: Line)
    requires forall i :: 0 <= i < |lines| ==> AllAscii(lines[i])
    requires AllAscii(line)
    ensures DecodeAll(lines + [line]) == DecodeAll(lines) + [Decode(line)]
  {
    var all := lines + [line];
    assert forall i :: 0 <= i < |all| ==> AllAscii(all[i]);
    var l, r := DecodeAll(all), DecodeAll(lines) + [Decode(line)];
    assert |l| == |r|;
    forall i | 0 <= i < |l| ensures l[i] == r[i] {
      if i < |lines| {
        assert all[i] == lines[i];
      }
    }
  }

  /**
   * What `search` does with the whole input. Each byte reaches the loop body
   * through `read_to_string` on a one-byte chunk, which refuses a byte that is
   * not ASCII (it is not valid UTF-8 on its own); the loop body's first use of
   * `query_remainder[0]` panics when the query is empty.
   */
  function SearchOutcome(query: seq<Byte>, ignoreCase: bool, input: seq<Byte>): (r: Outcome)
    ensures r == Panicked <==> |query| == 0 && input != [] && IsAscii(input[0])
    ensures r == Returned(Err(IoError(InvalidData))) <==>
      if |query| == 0 then input != [] && !IsAscii(input[0]) else !AllAscii(input)
    ensures r.Returned? && r.result.Ok? <==> input == [] || (|query| > 0 && AllAscii(input))
  {
    if |query| == 0 then
      if input == [] then Returned(Ok([]))
      else if !IsAscii(input[0]) then Returned(Err(IoError(InvalidData)))
      else Panicked
    else if !AllAscii(input) then Returned(Err(IoError(InvalidData)))
    else
      var lines := Finish(Scan(query, ignoreCase, input));
      assert AsciiState(Initial);
      Returned(Ok(DecodeAll(lines)))
  }

  /** The loop's variables hold what `st` describes, the findings already decoded to text. */
  predicate Mirrors(st: State, findings: seq<string>, currentLine: seq<Byte>, insideQuery: bool, queryFound: bool) {
    && AsciiState(st)
    && findings == DecodeAll(st.findings)
    && currentLine == st.line
    && insideQuery == st.inside
    && queryFound == st.found
  }

  /** Line assembly for one byte, on the loop's variables (src/lib.rs:54-73). */
  method AssembleLine(ghost st: State, findings: seq<string>, currentLine: seq<Byte>, insideQuery: bool, queryFound: bool, byte: Byte)
    returns (findings': seq<string>, currentLine': seq<Byte>, insideQuery': bool, queryFound': bool)
    requires Mirrors(st, findings, currentLine, insideQuery, queryFound) && IsAscii(byte)
    ensures Mirrors(Assemble(st, byte), findings', currentLine', insideQuery', queryFound')
  {
    findings', currentLine', insideQuery', queryFound' := findings, currentLine, insideQuery, queryFound;
    if byte == LF {
      if queryFound' {
        DecodeAllSnoc(st.findings, currentLine');
        findings' := findings' + [Decode(currentLine')];
        queryFound' := false;
        insideQuery' := false;
      }
      if insideQuery' {
        currentLine' := currentLine' + EscapedLF;
      } else {
        currentLine' := [];
      }
    } else if byte == CR {
      currentLine' := currentLine' + EscapedCR;
    } else {
      currentLine' := currentLine' + [byte];
    }
  }

  /** Naive matching for one byte, on the loop's variables (src/lib.rs:75-90); `queryRemainder` is `query[st.cursor..]`. */
  method MatchByte(query: seq<Byte>, ignoreCase: bool, ghost st: State, queryRemainder: seq<Byte>, queryFound: bool, byte: Byte)
    returns (insideQuery': bool, queryRemainder': seq<Byte>, queryFound': bool)
    requires st.cursor < |query| && queryRemainder == query[st.cursor..]
    ensures var r := Match(query, ignoreCase, st.(found := queryFound), byte);
            insideQuery' == r.inside && queryRemainder' == query[r.cursor..] && queryFound' == r.found
  {
    insideQuery' := if ignoreCase && IsAscii(byte) then EqIgnoreAsciiCase(queryRemainder[0], byte)
                    else queryRemainder[0] == byte;
    queryRemainder' := if insideQuery' then queryRemainder[1..] else query;
    queryFound' := queryFound;
    if queryRemainder' == [] {
      queryFound' := true;
      queryRemainder' := query;
    }
  }

  /** The read loop of src/lib.rs:37-100, one byte per iteration. */
  method Search(input: seq<Byte>, query: seq<Byte>, ignoreCase: bool) returns (outcome: Outcome)
    ensures outcome == SearchOutcome(query, ignoreCase, input)
  {
    var findings: seq<string> := [];
    var currentLine: seq<Byte> := [];
    var queryRemainder := query;
    var insideQuery := false;
    var queryFound := false;
    ghost var st := Initial;
    var i := 0;
    while i < |input|
      invariant i <= |input| && AllAscii(input[..i])
      invariant |query| == 0 ==> i == 0 && st == Initial
      invariant |query| > 0 ==> st == Scan(query, ignoreCase, input[..i])
      invariant Mirrors(st, findings, currentLine, insideQuery, queryFound)
      invariant st.cursor <= |query| && queryRemainder == query[st.cursor..]
    {
      var byte := input[i];
      if !IsAscii(byte) {
        return Returned(Err(IoError(InvalidData)));
      }
      findings, currentLine, insideQuery, queryFound := AssembleLine(st, findings, currentLine, insideQuery, queryFound, byte);
      if queryRemainder == [] {
        return Panicked;
      }
      ghost var assembled := Assemble(st, byte);
      insideQuery, queryRemainder, queryFound := MatchByte(query, ignoreCase, assembled, queryRemainder, queryFound, byte);
      ScanNext(query, ignoreCase, input, i);
      st := Step(query, ignoreCase, st, byte);
      i := i + 1;
    }
    assert input[..i] == input;
    if queryFound {
      DecodeAllSnoc(st.findings, currentLine);
      findings := findings + [Decode(currentLine)];
    }
    return Returned(Ok(findings));
  }

  /** A line buffer holds no raw newline or carriage return. */
  predicate NoRawBreaks(line: Line) {
    forall i :: 0 <= i < |line| ==> line[i] != LF && line[i] != CR
  }

  /** Every byte held in the state is ASCII, so `str::from_utf8` accepts each line. */
  predicate AsciiState(st: State) {
    AllAscii(st.line) && forall i :: 0 <= i < |st.findings| ==> AllAscii(st.findings[i])
  }

  /** The comparison of one query byte with one input byte. */
  predicate ByteMatches(ignoreCase: bool, expected: Byte, b: Byte) {
    if ignoreCase && IsAscii(b) then EqIgnoreAsciiCase(expected, b) else expected == b
  }

  /**
   * The comparison is exact unless case is ignored and the input byte is
   * ASCII; then a lower-case letter also matches its upper-case form.
   */
  lemma ByteMatchesCases(ignoreCase: bool, expected: Byte, b: Byte)
    ensures expected == b ==> ByteMatches(ignoreCase, expected, b)
    ensures !ignoreCase || !IsAscii(b) ==> (ByteMatches(ignoreCase, expected, b) <==> expected == b)
    ensures ignoreCase && 'a' as int <= b <= 'z' as int ==> (ByteMatches(ignoreCase, expected, b) <==> expected == b || expected == b - 32)
  {
  }

  /** Byte-for-byte agreement of the query (or a prefix of it) with a stretch of input. */
  predicate Agrees(ignoreCase: bool, pattern: seq<Byte>, text: seq<Byte>) {
    |pattern| == |text| && forall i :: 0 <= i < |pattern| ==> ByteMatches(ignoreCase, pattern[i], text[i])
  }

  /** The bytes a raw input byte becomes in the line buffer. */
  function EscapeByte(b: Byte): (r: seq<Byte>)
    ensures NoRawBreaks(r) && 1 <= |r| <= 2
    ensures b != LF && b != CR ==> r == [b]
  {
    if b == LF then EscapedLF else if b == CR then EscapedCR else [b]
  }

  /** The escaped form of a stretch of raw input. */
  function Escape(s: seq<Byte>): (r: seq<Byte>)
    ensures NoRawBreaks(r) && |s| <= |r| <= 2 * |s|
    ensures AllAscii(s) ==> AllAscii(r)
  {
    if s == [] then [] else Escape(s[..|s| - 1]) + EscapeByte(s[|s| - 1])
  }

  /** Line assembly for one byte (src/lib.rs:54-73). */
  function Assemble(st: State, b: Byte): (r: State)
    ensures r.cursor == st.cursor
    ensures b != LF ==> r.findings == st.findings && r.line == st.line + EscapeByte(b)
    ensures b == LF && !st.found ==> r.findings == st.findings
    ensures b == LF && st.found ==> r.findings == st.findings + [st.line] && r.line == []
  {
    if b == LF then
      var st' := if st.found then st.(findings := st.findings + [st.line], found := false, inside := false) else st;
      if st'.inside then st'.(line := st'.line + EscapedLF) else st'.(line := [])
    else if b == CR then
      st.(line := st.line + EscapedCR)
    else
      st.(line := st.line + [b])
  }

  /** True when matching `b` completes an occurrence of the query. */
  predicate Completes(query: seq<Byte>, ignoreCase: bool, cursor: nat, b: Byte)
    requires cursor < |query|
  {
    ByteMatches(ignoreCase, query[cursor], b) && cursor + 1 == |query|
  }

  /** Naive matching for one byte (src/lib.rs:75-90): no rescan of `b` after a mismatch. */
  function Match(query: seq<Byte>, ignoreCase: bool, st: State, b: Byte): (r: State)
    requires st.cursor < |query|
    ensures r.cursor < |query|
    ensures r.findings == st.findings && r.line == st.line
    ensures r.inside == ByteMatches(ignoreCase, query[st.cursor], b)
    ensures r.found == (st.found || Completes(query, ignoreCase, st.cursor, b))
    ensures r.cursor == if r.inside && !Completes(query, ignoreCase, st.cursor, b) then st.cursor + 1 else 0
  {
    var inside := ByteMatches(ignoreCase, query[st.cursor], b);
    var cursor := if inside then st.cursor + 1 else 0;
    if cursor == |query| then
      st.(inside := inside, cursor := 0, found := true)
    else
      st.(inside := inside, cursor := cursor)
  }

  /** What the loop body does with one byte. */
  function Step(query: seq<Byte>, ignoreCase: bool, st: State, b: Byte): (r: State)
    requires st.cursor < |query|
    ensures r.cursor < |query|
    ensures NoRawBreaks(st.line) ==> NoRawBreaks(r.line)
    ensures AsciiState(st) && IsAscii(b) ==> AsciiState(r)
    ensures r.findings == st.findings || (b == LF && st.found && r.findings == st.findings + [st.line])
  {
    Match(query, ignoreCase, Assemble(st, b), b)
  }

  /**
   * What one byte does to the buffers. At a newline with no match pending
   * the line buffer is cleared unless the previous byte matched; with one
   * pending, the line is pushed and then cleared.
   */
  lemma StepLine(query: seq<Byte>, ignoreCase: bool, st: State, b: Byte)
    requires st.cursor < |query|
    ensures var r := Step(query, ignoreCase, st, b);
      && r.findings == (if b == LF && st.found then st.findings + [st.line] else st.findings)
      && r.line == (if b == LF && (st.found || !st.inside) then [] else st.line + EscapeByte(b))
  {
  }

  /** What one byte does to the match state: it is compared with the next query byte. */
  lemma StepMatch(query: seq<Byte>, ignoreCase: bool, st: State, b: Byte)
    requires st.cursor < |query|
    ensures var r := Step(query, ignoreCase, st, b);
      && r.inside == ByteMatches(ignoreCase, query[st.cursor], b)
      && r.found == ((b != LF && st.found) || Completes(query, ignoreCase, st.cursor, b))
      && r.cursor == (if r.inside && !Completes(query, ignoreCase, st.cursor, b) then st.cursor + 1 else 0)
  {
  }

  /** The state reached from `st` once the loop has consumed `input`. */
  function Run(query: seq<Byte>, ignoreCase: bool, st: State, input: seq<Byte>): (r: State)
    requires st.cursor < |query|
    ensures r.cursor < |query|
    ensures NoRawBreaks(st.line) ==> NoRawBreaks(r.line)
    ensures AsciiState(st) && AllAscii(input) ==> AsciiState(r)
  {
    if input == [] then st
    else Step(query, ignoreCase, Run(query, ignoreCase, st, input[..|input| - 1]), input[|input| - 1])
  }

  /** The state after the loop has consumed `input` from the start. */
  function Scan(query: seq<Byte>, ignoreCase: bool, input: seq<Byte>): (r: State)
    requires |query| > 0
    ensures r.cursor < |query| && NoRawBreaks(r.line)
    ensures AllAscii(input) ==> AsciiState(r)
  {
    Run(query, ignoreCase, Initial, input)
  }

  /** After the loop: a match pending on the unterminated last line is flushed (src/lib.rs:95-97). */
  function Finish(st: State): (r: seq<Line>)
    ensures st.findings <= r && |r| <= |st.findings| + 1
    ensures |r| == |st.findings| + 1 <==> st.found
    ensures st.found ==> r[|r| - 1] == st.line
    ensures AsciiState(st) ==> forall i :: 0 <= i < |r| ==> AllAscii(r[i])
  {
    if st.found then st.findings + [st.line] else st.findings
  }

  /** One more byte of `input` read by the loop. */
  lemma ScanNext(query: seq<Byte>, ignoreCase: bool, input: seq<Byte>, i: nat)
    requires |query| > 0 && i < |input|
    requires AllAscii(input[..i]) && IsAscii(input[i])
    ensures Scan(query, ignoreCase, input[..i + 1]) == Step(query, ignoreCase, Scan(query, ignoreCase, input[..i]), input[i])
    ensures AllAscii(input[..i + 1])
  {
    assert input[..i + 1] == input[..i] + [input[i]];
    RunSnoc(query, ignoreCase, Initial, input[..i], input[i]);
  }

  lemma {:induction false} RunSnoc(query: seq<Byte>, ignoreCase: bool, st: State, s: seq<Byte>, b: Byte)
    requires st.cursor < |query|
    ensures Run(query, ignoreCase, st, s + [b]) == Step(query, ignoreCase, Run(query, ignoreCase, st, s), b)
  {
    assert (s + [b])[..|s|] == s;
  }

  /** Consuming `s + t` is consuming `s`, then `t`. */
  lemma {:induction false} RunAppend(query: seq<Byte>, ignoreCase: bool, st: State, s: seq<Byte>, t: seq<Byte>)
    requires st.cursor < |query|
    ensures Run(query, ignoreCase, st, s + t) == Run(query, ignoreCase, Run(query, ignoreCase, st, s), t)
    decreases |t|
  {
    if t == [] {
      assert s + t == s;
    } else {
      var init, last := t[..|t| - 1], t[|t| - 1];
      assert s + t == (s + init) + [last];
      assert t == init + [last];
      RunSnoc(query, ignoreCase, st, s + init, last);
      RunAppend(query, ignoreCase, st, s, init);
      RunSnoc(query, ignoreCase, Run(query, ignoreCase, st, s), init, last);
    }
  }

  /** A byte that neither breaks the line nor starts the query. */
  predicate Plain(query: seq<Byte>, ignoreCase: bool, b: Byte)
    requires |query| > 0
  {
    b != LF && b != CR && !ByteMatches(ignoreCase, query[0], b)
  }

  /** One byte that continues the query: it is copied to the buffer and the cursor advances. */
  lemma StepMatching(query: seq<Byte>, ignoreCase: bool, st: State, b: Byte)
    requires st.cursor < |query| && b != LF && b != CR
    requires ByteMatches(ignoreCase, query[st.cursor], b)
    ensures var done := st.cursor + 1 == |query|;
            Step(query, ignoreCase, st, b)
            == st.(line := st.line + [b], inside := true, cursor := if done then 0 else st.cursor + 1, found := st.found || done)
  {
  }

  /** Bytes that neither break the line nor start the query are copied to the buffer and nothing else happens. */
  lemma {:induction false} RunPlain(query: seq<Byte>, ignoreCase: bool, st: State, t: seq<Byte>)
    requires |query| > 0 && |t| > 0 && st.cursor == 0
    requires forall i :: 0 <= i < |t| ==> Plain(query, ignoreCase, t[i])
    ensures Run(query, ignoreCase, st, t) == st.(line := st.line + t, inside := false)
    decreases |t|
  {
    var init, last := t[..|t| - 1], t[|t| - 1];
    assert t == init + [last];
    RunSnoc(query, ignoreCase, st, init, last);
    if |init| > 0 {
      RunPlain(query, ignoreCase, st, init);
    }
  }

  /** Bytes that continue the query from the cursor advance it one by one, setting `query_found` if they complete it. */
  lemma {:induction false} RunMatching(query: seq<Byte>, ignoreCase: bool, st: State, t: seq<Byte>)
    requires |t| > 0 && st.cursor + |t| <= |query|
    requires forall i :: 0 <= i < |t| ==> t[i] != LF && t[i] != CR && ByteMatches(ignoreCase, query[st.cursor + i], t[i])
    ensures var done := st.cursor + |t| == |query|;
            Run(query, ignoreCase, st, t)
            == st.(line := st.line + t, inside := true, cursor := if done then 0 else st.cursor + |t|, found := st.found || done)
    decreases |t|
  {
    var init, last := t[..|t| - 1], t[|t| - 1];
    assert t == init + [last];
    RunSnoc(query, ignoreCase, st, init, last);
    var mid := Run(query, ignoreCase, st, init);
    if |init| > 0 {
      assert forall i :: 0 <= i < |init| ==> init[i] == t[i];
      RunMatching(query, ignoreCase, st, init);
    }
    assert mid == st.(line := st.line + init, inside := mid.inside, cursor := st.cursor + |init|);
    assert ByteMatches(ignoreCase, query[st.cursor + |init|], t[|t| - 1]);
    StepMatching(query, ignoreCase, mid, last);
  }
}

=== FILE: search_examples.dfy ===
/**
 * The test vectors of src/lib.rs and the behaviours that follow from the
 * naive scan, each worked out through the fold one chunk of input at a time.
 */
module SearchExamples {
  import opened Wrappers
  import opened Bytes
  import opened Search
  import opened SearchProperties

  /** One byte run from `st`. */
  lemma RunOne(query: seq<Byte>, ignoreCase: bool, st: State, b: Byte)
    requires st.cursor < |query|
    ensures Run(query, ignoreCase, st, [b]) == Step(query, ignoreCase, st, b)
  {
    RunSnoc(query, ignoreCase, st, [], b);
    assert [] + [b] == [b];
  }

  /** Chains two runs whose intermediate state is known. */
  lemma RunThen(query: seq<Byte>, ignoreCase: bool, st: State, x: seq<Byte>, mid: State, y: seq<Byte>, fin: State)
    requires st.cursor < |query| && mid.cursor < |query|
    requires Run(query, ignoreCase, st, x) == mid && Run(query, ignoreCase, mid, y) == fin
    ensures Run(query, ignoreCase, st, x + y) == fin
  {
    RunAppend(query, ignoreCase, st, x, y);
  }

  lemma Part1(q: seq<Byte>, a: seq<Byte>, b: seq<Byte>)
    requires q == Encode("\njumps") && a == Encode("The quick brown fox") && b == Encode("jumps")
    ensures Run(q, false, Initial, a + [LF] + b) == State([], b, 0, true, true)
  {
    RunPlain(q, false, Initial, a);
    RunOne(q, false, Initial.(line := a), LF);
    RunThen(q, false, Initial, a, Initial.(line := a), [LF], State([], [], 1, true, false));
    RunMatching(q, false, State([], [], 1, true, false), b);
    RunThen(q, false, Initial, a + [LF], State([], [], 1, true, false), b, State([], b, 0, true, true));
  }

  lemma Part2(q: seq<Byte>, c: seq<Byte>, t: seq<Byte>, d: seq<Byte>, st: State)
    requires q == Encode("\njumps") && c == Encode(" over") && t == Encode("t") && d == Encode("he lazy dog")
    requires st.cursor == 0 && st.found
    ensures Run(q, false, st, c + [LF] + t + d) == State(st.findings + [st.line + c], t + d, 0, false, false)
  {
    RunPlain(q, false, st, c);
    var st1 := st.(line := st.line + c, inside := false);
    RunOne(q, false, st1, LF);
    var st2 := State(st.findings + [st.line + c], [], 1, true, false);
    RunThen(q, false, st, c, st1, [LF], st2);
    RunOne(q, false, st2, t[0]);
    var st3 := State(st.findings + [st.line + c], t, 0, false, false);
    RunThen(q, false, st, c + [LF], st2, t, st3);
    PlainTail(q, d, st3);
    RunThen(q, false, st, c + [LF] + t, st3, d, st3.(line := t + d));
  }

  /** No byte of `he lazy dog` is a newline or the query's first byte, so reading it only extends the line. */
  lemma PlainTail(q: seq<Byte>, d: seq<Byte>, st: State)
    requires q == Encode("\njumps") && d == Encode("he lazy dog") && st.cursor == 0
    ensures Run(q, false, st, d) == st.(line := st.line + d, inside := false)
  {
    RunPlain(q, false, st, d);
  }

  lemma AcrossNewlineScan(q: seq<Byte>, a: seq<Byte>, b: seq<Byte>, c: seq<Byte>, t: seq<Byte>, d: seq<Byte>)
    requires q == Encode("\njumps") && a == Encode("The quick brown fox") && b == Encode("jumps")
    requires c == Encode(" over") && t == Encode("t") && d == Encode("he lazy dog")
    ensures Finish(Scan(q, false, (a + [LF] + b) + (c + [LF] + t + d))) == [b + c]
  {
    var x, y := a + [LF] + b, c + [LF] + t + d;
    Part1(q, a, b);
    Part2(q, c, t, d, State([], b, 0, true, true));
    RunThen(q, false, Initial, x, State([], b, 0, true, true), y, State([b + c], t + d, 0, false, false));
  }

  /** For an ASCII input and a non-empty query, the outcome is the decoded result of the fold. */
  lemma OutcomeOfScan(query: string, ignoreCase: bool, input: string, expected: seq<string>)
    requires IsAsciiText(query) && IsAsciiText(input) && |query| > 0
    requires DecodeAll(Finish(Scan(Encode(query), ignoreCase, Encode(input)))) == expected
    ensures SearchOutcome(Encode(query), ignoreCase, Encode(input)) == Returned(Ok(expected))
  {
  }

  /** Three ASCII lines joined by newlines, encoded. */
  lemma LinesInput(x: string, y: string, z: string)
    requires IsAsciiText(x) && IsAsciiText(y) && IsAsciiText(z)
    ensures IsAsciiText(x + "\n" + y + "\n" + z)
    ensures Encode(x + "\n" + y + "\n" + z) == Encode(x) + [LF] + Encode(y) + [LF] + Encode(z)
  {
    assert Encode("\n") == [LF];
    EncodeAppend(x, "\n");
    EncodeAppend(x + "\n", y);
    EncodeAppend(x + "\n" + y, "\n");
    EncodeAppend(x + "\n" + y + "\n", z);
  }

  /** Three lines, the first and the last split in two, regrouped around the middle one. */
  lemma Regroup(a: seq<Byte>, b: seq<Byte>, c: seq<Byte>, d: seq<Byte>, e: seq<Byte>)
    ensures a + [LF] + (b + c) + [LF] + (d + e) == (a + [LF] + b) + (c + [LF] + d + e)
  {
  }

  /** Three lines, the first split in two, regrouped after the first newline. */
  lemma RegroupFirst(a: seq<Byte>, b: seq<Byte>, y: seq<Byte>, z: seq<Byte>)
    ensures (a + b) + [LF] + y + [LF] + z == (a + b + [LF]) + (y + [LF] + z)
  {
  }

  /** Three lines, the last split in two, regrouped after the second newline. */
  lemma RegroupLast(x: seq<Byte>, y: seq<Byte>, d: seq<Byte>, e: seq<Byte>)
    ensures x + [LF] + y + [LF] + (d + e) == (x + [LF] + y + [LF]) + (d + e)
  {
  }

  lemma AcrossNewlineInput()
    ensures Encode("The quick brown fox" + "\n" + "jumps over" + "\n" + "the lazy dog")
            == (Encode("The quick brown fox") + [LF] + Encode("jumps")) + (Encode(" over") + [LF] + Encode("t") + Encode("he lazy dog"))
    ensures Encode("jumps") + Encode(" over") == Encode("jumps over")
  {
    var x, y, z := "The quick brown fox", "jumps over", "the lazy dog";
    LinesInput(x, y, z);
    assert y == "jumps" + " over" && z == "t" + "he lazy dog";
    EncodeAppend("jumps", " over");
    EncodeAppend("t", "he lazy dog");
    Regroup(Encode(x), Encode("jumps"), Encode(" over"), Encode("t"), Encode("he lazy dog"));
  }

  /** A query that begins with a newline matches across it; the finding is the line the match completes on. */
  lemma QueryAcrossNewline()
    ensures SearchOutcome(Encode("\njumps"), false, Encode("The quick brown fox" + "\n" + "jumps over" + "\n" + "the lazy dog"))
            == Returned(Ok(["jumps over"]))
  {
    var b, c := Encode("jumps"), Encode(" over");
    AcrossNewlineInput();
    AcrossNewlineScan(Encode("\njumps"), Encode("The quick brown fox"), b, c, Encode("t"), Encode("he lazy dog"));
    DecodeEncode("jumps over");
    OutcomeOfScan("\njumps", false, "The quick brown fox" + "\n" + "jumps over" + "\n" + "the lazy dog", ["jumps over"]);
  }

  /** A newline that completes no finding and is not part of a match clears the line. */
  lemma RunBareNewline(query: seq<Byte>, ignoreCase: bool, st: State)
    requires |query| > 0 && st.cursor == 0 && !st.found && !st.inside
    requires !ByteMatches(ignoreCase, query[0], LF)
    ensures Run(query, ignoreCase, st, [LF]) == st.(line := [])
  {
    RunOne(query, ignoreCase, st, LF);
  }

  /** A line that starts with plain bytes and ends with the whole query, read from the start. */
  lemma PlainThenQuery(q: seq<Byte>, ignoreCase: bool, a: seq<Byte>, b: seq<Byte>)
    requires |a| > 0 && |b| == |q| > 0
    requires forall i :: 0 <= i < |a| ==> Plain(q, ignoreCase, a[i])
    requires forall i :: 0 <= i < |b| ==> b[i] != LF && b[i] != CR && ByteMatches(ignoreCase, q[i], b[i])
    ensures Run(q, ignoreCase, Initial, a + b) == State([], a + b, 0, true, true)
  {
    RunPlain(q, ignoreCase, Initial, a);
    RunMatching(q, ignoreCase, Initial.(line := a), b);
    RunThen(q, ignoreCase, Initial, a, Initial.(line := a), b, State([], a + b, 0, true, true));
  }

  lemma IgnoreCasePlainLines(q: seq<Byte>, r1: seq<Byte>, r2: seq<Byte>, st: State)
    requires q == Encode("BROWN FOX") && r1 == Encode("jumps over") && r2 == Encode("the lazy dog")
    requires st.cursor == 0 && !st.found && !st.inside
    ensures Run(q, true, st, r1 + [LF] + r2) == st.(line := r2)
  {
    RunPlain(q, true, st, r1);
    var st1 := st.(line := st.line + r1);
    RunBareNewline(q, true, st1);
    RunThen(q, true, st, r1, st1, [LF], st.(line := []));
    RunPlain(q, true, st.(line := []), r2);
    assert [] + r2 == r2;
    RunThen(q, true, st, r1 + [LF], st.(line := []), r2, st.(line := r2));
  }

  lemma IgnoreCaseScan(q: seq<Byte>, a1: seq<Byte>, a2: seq<Byte>, r1: seq<Byte>, r2: seq<Byte>)
    requires q == Encode("BROWN FOX") && a1 == Encode("The quick ") && a2 == Encode("brown fox")
    requires r1 == Encode("jumps over") && r2 == Encode("the lazy dog")
    ensures Finish(Scan(q, true, (a1 + a2 + [LF]) + (r1 + [LF] + r2))) == [a1 + a2]
  {
    PlainThenQuery(q, true, a1, a2);
    var st1 := State([], a1 + a2, 0, true, true);
    var st2 := State([a1 + a2], [], 0, false, false);
    RunOne(q, true, st1, LF);
    RunThen(q, true, Initial, a1 + a2, st1, [LF], st2);
    IgnoreCasePlainLines(q, r1, r2, st2);
    RunThen(q, true, Initial, a1 + a2 + [LF], st2, r1 + [LF] + r2, st2.(line := r2));
  }

  lemma IgnoreCaseInput()
    ensures Encode("The quick brown fox" + "\n" + "jumps over" + "\n" + "the lazy dog")
            == (Encode("The quick ") + Encode("brown fox") + [LF]) + (Encode("jumps over") + [LF] + Encode("the lazy dog"))
    ensures Encode("The quick ") + Encode("brown fox") == Encode("The quick brown fox")
  {
    var x, y, z := "The quick brown fox", "jumps over", "the lazy dog";
    LinesInput(x, y, z);
    assert x == "The quick " + "brown fox";
    EncodeAppend("The quick ", "brown fox");
    RegroupFirst(Encode("The quick "), Encode("brown fox"), Encode(y), Encode(z));
  }

  /** With case ignored, an upper-case query finds its lower-case occurrence. */
  lemma IgnoreCaseMatch()
    ensures SearchOutcome(Encode("BROWN FOX"), true, Encode("The quick brown fox" + "\n" + "jumps over" + "\n" + "the lazy dog"))
            == Returned(Ok(["The quick brown fox"]))
  {
    var a1, a2 := Encode("The quick "), Encode("brown fox");
    IgnoreCaseInput();
    IgnoreCaseScan(Encode("BROWN FOX"), a1, a2, Encode("jumps over"), Encode("the lazy dog"));
    DecodeEncode("The quick brown fox");
    OutcomeOfScan("BROWN FOX", true, "The quick brown fox" + "\n" + "jumps over" + "\n" + "the lazy dog", ["The quick brown fox"]);
  }

  lemma LazyDogPlainLines(q: seq<Byte>, l1: seq<Byte>, l2: seq<Byte>)
    requires q == Encode("lazy dog") && l1 == Encode("The quick brown fox") && l2 == Encode("jumps over")
    ensures Run(q, true, Initial, l1 + [LF] + l2 + [LF]) == Initial
  {
    RunPlain(q, true, Initial, l1);
    RunBareNewline(q, true, Initial.(line := l1));
    RunThen(q, true, Initial, l1, Initial.(line := l1), [LF], Initial);
    RunPlain(q, true, Initial, l2);
    RunThen(q, true, Initial, l1 + [LF], Initial, l2, Initial.(line := l2));
    RunBareNewline(q, true, Initial.(line := l2));
    RunThen(q, true, Initial, l1 + [LF] + l2, Initial.(line := l2), [LF], Initial);
  }


  lemma LazyDogInput()
    ensures Encode("The quick brown fox" + "\n" + "jumps over" + "\n" + "the Lazy Dog")
            == (Encode("The quick brown fox") + [LF] + Encode("jumps over") + [LF]) + (Encode("the ") + Encode("Lazy Dog"))
    ensures Encode("the ") + Encode("Lazy Dog") == Encode("the Lazy Dog")
  {
    var x, y, z := "The quick brown fox", "jumps over", "the Lazy Dog";
    LinesInput(x, y, z);
    assert z == "the " + "Lazy Dog";
    EncodeAppend("the ", "Lazy Dog");
    RegroupLast(Encode(x), Encode(y), Encode("the "), Encode("Lazy Dog"));
  }

  lemma LazyDogScan(q: seq<Byte>, l1: seq<Byte>, l2: seq<Byte>, l3a: seq<Byte>, l3b: seq<Byte>)
    requires q == Encode("lazy dog") && l1 == Encode("The quick brown fox") && l2 == Encode("jumps over")
    requires l3a == Encode("the ") && l3b == Encode("Lazy Dog")
    ensures Finish(Scan(q, true, (l1 + [LF] + l2 + [LF]) + (l3a + l3b))) == [l3a + l3b]
  {
    LazyDogPlainLines(q, l1, l2);
    PlainThenQuery(q, true, l3a, l3b);
    RunThen(q, true, Initial, l1 + [LF] + l2 + [LF], Initial, l3a + l3b, State([], l3a + l3b, 0, true, true));
  }

  /** A match on the last line, which has no newline after it, is reported when the input ends. */
  lemma IgnoreCaseLastLine()
    ensures SearchOutcome(Encode("lazy dog"), true, Encode("The quick brown fox" + "\n" + "jumps over" + "\n" + "the Lazy Dog"))
            == Returned(Ok(["the Lazy Dog"]))
  {
    LazyDogInput();
    LazyDogScan(Encode("lazy dog"), Encode("The quick brown fox"), Encode("jumps over"), Encode("the "), Encode("Lazy Dog"));
    DecodeEncode("the Lazy Dog");
    OutcomeOfScan("lazy dog", true, "The quick brown fox" + "\n" + "jumps over" + "\n" + "the Lazy Dog", ["the Lazy Dog"]);
  }

  lemma FalseStartRun(q: seq<Byte>, a: Byte, b: Byte)
    requires q == [a, b] && a == 97 && b == 98
    ensures Run(q, false, Initial, [a, a, b]) == State([], [a, a, b], 0, false, false)
  {
    RunMatching(q, false, Initial, [a]);
    var st1 := State([], [a], 1, true, false);
    RunOne(q, false, st1, a);
    var st2 := State([], [a] + [a], 0, false, false);
    RunThen(q, false, Initial, [a], st1, [a], st2);
    RunPlain(q, false, st2, [b]);
    assert [a, a, b] == [a] + [a] + [b];
    RunThen(q, false, Initial, [a] + [a], st2, [b], st2.(line := [a, a, b]));
  }

  /**
   * After a partial match fails the scan moves on without re-examining the
   * byte that broke it, so an occurrence that overlaps a false start is missed.
   */
  lemma MissedAfterFalseStart()
    ensures OccursEndingAt(Encode("ab"), false, Encode("aab"), 3)
    ensures SearchOutcome(Encode("ab"), false, Encode("aab")) == Returned(Ok([]))
  {
    var ab, aab := Encode("ab"), Encode("aab");
    assert ab == [97, 98] && aab == [97, 97, 98];
    assert aab[1..3] == ab;
    FalseStartRun(ab, 97, 98);
    OutcomeOfScan("ab", false, "aab", []);
  }

  lemma SpanningRun(q: seq<Byte>, x: Byte, a: Byte, b: Byte)
    requires q == [a, b] && x == 120 && a == 97 && b == 98
    ensures Run(q, false, Initial, [x] + [a] + [LF] + q + [LF]) == State([[x] + [a] + EscapedLF + q], [], 0, false, false)
  {
    RunPlain(q, false, Initial, [x]);
    RunMatching(q, false, Initial.(line := [x]), [a]);
    var st1 := State([], [x] + [a], 1, true, false);
    RunThen(q, false, Initial, [x], Initial.(line := [x]), [a], st1);
    RunOne(q, false, st1, LF);
    var st2 := State([], [x] + [a] + EscapedLF, 0, false, false);
    RunThen(q, false, Initial, [x] + [a], st1, [LF], st2);
    RunMatching(q, false, st2, q);
    var st3 := State([], [x] + [a] + EscapedLF + q, 0, true, true);
    RunThen(q, false, Initial, [x] + [a] + [LF], st2, q, st3);
    RunOne(q, false, st3, LF);
    RunThen(q, false, Initial, [x] + [a] + [LF] + q, st3, [LF], State([st3.line], [], 0, false, false));
  }

  lemma SpanningScan()
    ensures Finish(Scan(Encode("ab"), false, Encode("xa\nab\n"))) == [Encode("xa\\nab")]
  {
    var ab, input, line := Encode("ab"), Encode("xa\nab\n"), Encode("xa\\nab");
    assert ab == [97, 98];
    assert input == [120] + [97] + [LF] + ab + [LF];
    assert line == [120] + [97] + EscapedLF + ab;
    SpanningRun(ab, 120, 97, 98);
  }

  /**
   * A partial match that reaches the end of a line keeps that line: the
   * newline is escaped into the current line, so a finding completed on the
   * next line carries the earlier one with it.
   */
  lemma PartialMatchCarriesLine()
    ensures SearchOutcome(Encode("ab"), false, Encode("xa\nab\n")) == Returned(Ok(["xa\\nab"]))
  {
    SpanningScan();
    DecodeEncode("xa\\nab");
    OutcomeOfScan("ab", false, "xa\nab\n", ["xa\\nab"]);
  }

  lemma RepeatedRun(q: seq<Byte>)
    requires q == [97, 98]
    ensures Run(q, false, Initial, q + q + [LF]) == State([q + q], [], 0, false, false)
  {
    RunMatching(q, false, Initial, q);
    var st1 := State([], q, 0, true, true);
    RunMatching(q, false, st1, q);
    var st2 := State([], q + q, 0, true, true);
    RunThen(q, false, Initial, q, st1, q, st2);
    RunOne(q, false, st2, LF);
    RunThen(q, false, Initial, q + q, st2, [LF], State([q + q], [], 0, false, false));
  }

  /**
   * A query ending in a newline completes on the newline that pushes the
   * line before it, so the pending match is reported with the empty line
   * that follows.
   */
  lemma QueryEndingInNewline()
    ensures SearchOutcome([120, 10], false, [120, 10, 120, 10]) == Returned(Ok(["x\\nx", ""]))
  {
    var q, x := [120, 10], 120;
    var esc := [x, 92, 110];
    var st1 := State([], [x], 1, true, false);
    var st2 := State([], esc, 0, true, true);
    var st3 := State([], esc + [x], 1, true, true);
    var st4 := State([esc + [x]], [], 0, true, true);
    RunOne(q, false, Initial, x);
    RunOne(q, false, st1, LF);
    assert [x] + [LF] == [x, LF];
    RunThen(q, false, Initial, [x], st1, [LF], st2);
    RunOne(q, false, st2, x);
    assert [x, LF] + [x] == [x, LF, x];
    RunThen(q, false, Initial, [x, LF], st2, [x], st3);
    RunOne(q, false, st3, LF);
    assert [x, LF, x] + [LF] == [x, LF, x, LF];
    RunThen(q, false, Initial, [x, LF, x], st3, [LF], st4);
    assert Scan(q, false, [x, LF, x, LF]) == st4;
    assert AllAscii([x, LF, x, LF]) && AsciiState(st4);
    var lines := Finish(st4);
    assert lines == [esc + [x], []];
    var found := DecodeAll(lines);
    assert found[0] == Decode(esc + [x]) == "x\\nx";
    assert found[1] == Decode([]) == "";
    assert found == ["x\\nx", ""];
  }

  /** A line holding the query twice is reported once. */
  lemma LineReportedOnce()
    ensures SearchOutcome(Encode("ab"), false, Encode("abab\n")) == Returned(Ok(["abab"]))
  {
    var ab := Encode("ab");
    assert ab == [97, 98];
    assert Encode("abab\n") == ab + ab + [LF] && Encode("abab") == ab + ab;
    RepeatedRun(ab);
    DecodeEncode("abab");
    OutcomeOfScan("ab", false, "abab\n", ["abab"]);
  }

  /** An empty query is indexed on the first byte that is read, which panics. */
  lemma EmptyQueryPanics()
    ensures SearchOutcome([], false, Encode("a")) == Panicked
    ensures SearchOutcome([], false, []) == Returned(Ok([]))
  {
  }

  /** A byte outside ASCII is not valid UTF-8 on its own, so the one-byte read fails. */
  lemma NonAsciiIsInvalidData()
    ensures SearchOutcome(Encode("a"), false, [97, 0xC3, 0xA9]) == Returned(Err(IoError(InvalidData)))
  {
  }
}

=== FILE: search_properties.dfy ===
/**
 * What `search` promises, stated over the fold `Search.Scan`:
 * the cursor always describes the most recent input, a completed match
 * really is an occurrence of the query, the line buffer is the escaped input
 * since a line start, every finding is such a line run within which, or at
 * the newline that opens it, an occurrence of the query ends (it may begin
 * on an earlier line, as with the query `\njumps`), and findings are only ever appended, at most one per newline.
 */
module SearchProperties {
  import opened Wrappers
  import opened Bytes
  import opened Search

  /** The query occurs in `s` ending just before index `e`. */
  predicate OccursEndingAt(query: seq<Byte>, ignoreCase: bool, s: seq<Byte>, e: nat) {
    |query| <= e <= |s| && Agrees(ignoreCase, query, s[e - |query|..e])
  }

  /** An occurrence of the query ends at some index from `lo` to `hi`. */
  ghost predicate OccursWithin(query: seq<Byte>, ignoreCase: bool, s: seq<Byte>, lo: nat, hi: nat) {
    exists e :: lo <= e <= hi && OccursEndingAt(query, ignoreCase, s, e)
  }

  /** Index 0, or the index just after a raw newline. */
  predicate LineStart(s: seq<Byte>, k: nat) {
    k <= |s| && (k == 0 || s[k - 1] == LF)
  }

  /** A raw newline stands at index `j`. */
  predicate NewlineAt(s: seq<Byte>, j: nat) {
    j < |s| && s[j] == LF
  }

  /** A line run may end at a raw newline or at the end of input. */
  predicate RunEnd(s: seq<Byte>, j: nat) {
    j == |s| || NewlineAt(s, j)
  }

  /**
   * `f` is the escaped input `s[k..j]` that starts at a line start, and an
   * occurrence of the query ends in it or at the newline that opens it.
   */
  ghost predicate ReportedRun(query: seq<Byte>, ignoreCase: bool, s: seq<Byte>, f: Line, k: nat, j: nat) {
    && LineStart(s, k) && k <= j <= |s|
    && f == Escape(s[k..j])
    && OccursWithin(query, ignoreCase, s, k, j)
  }

  /** `f` is a reported line run closed by a raw newline of `s`. */
  ghost predicate ClosedRun(query: seq<Byte>, ignoreCase: bool, s: seq<Byte>, f: Line) {
    exists k: nat, j: nat :: NewlineAt(s, j) && ReportedRun(query, ignoreCase, s, f, k, j)
  }

  /** `f` is a reported line run closed by a raw newline of `s` or by its end. */
  ghost predicate LineRun(query: seq<Byte>, ignoreCase: bool, s: seq<Byte>, f: Line) {
    exists k: nat, j: nat :: RunEnd(s, j) && ReportedRun(query, ignoreCase, s, f, k, j)
  }

  /** The number of raw newline bytes in `s`. */
  function Newlines(s: seq<Byte>): (n: nat)
    ensures n <= |s|
  {
    if s == [] then 0 else Newlines(s[..|s| - 1]) + (if s[|s| - 1] == LF then 1 else 0)
  }

  /**
   * Where the current line buffer began. At a newline with no match pending
   * the buffer is cleared unless the previous byte matched; with one
   * pending, it is pushed and then cleared.
   */
  ghost function Origin(query: seq<Byte>, ignoreCase: bool, s: seq<Byte>): (k: nat)
    requires |query| > 0
    ensures LineStart(s, k)
  {
    if s == [] then 0
    else
      var p := s[..|s| - 1];
      var st := Scan(query, ignoreCase, p);
      if s[|s| - 1] == LF && (st.found || !st.inside) then |s|
      else Origin(query, ignoreCase, p)
  }

  lemma {:induction false} ScanSnoc(query: seq<Byte>, ignoreCase: bool, p: seq<Byte>, b: Byte)
    requires |query| > 0
    ensures Scan(query, ignoreCase, p + [b]) == Step(query, ignoreCase, Scan(query, ignoreCase, p), b)
    ensures (p + [b])[..|p|] == p
  {
    RunSnoc(query, ignoreCase, Initial, p, b);
  }

  lemma {:induction false} EscapeSnoc(s: seq<Byte>, b: Byte)
    ensures Escape(s + [b]) == Escape(s) + EscapeByte(b)
  {
    assert (s + [b])[..|s|] == s;
  }

  /** The last `cursor` bytes of `s` agree with the first `cursor` bytes of the query. */
  predicate CursorAgrees(query: seq<Byte>, ignoreCase: bool, cursor: nat, s: seq<Byte>) {
    cursor <= |query| && cursor <= |s| && Agrees(ignoreCase, query[..cursor], s[|s| - cursor..])
  }

  /** One step keeps the cursor in agreement with the input read. */
  lemma CursorStep(query: seq<Byte>, ignoreCase: bool, st: State, s: seq<Byte>, b: Byte)
    requires st.cursor < |query| && CursorAgrees(query, ignoreCase, st.cursor, s)
    ensures CursorAgrees(query, ignoreCase, Step(query, ignoreCase, st, b).cursor, s + [b])
  {
    StepMatch(query, ignoreCase, st, b);
    var c, c' := st.cursor, Step(query, ignoreCase, st, b).cursor;
    var s' := s + [b];
    if c' != 0 {
      assert query[..c'] == query[..c] + [query[c]];
      assert s'[|s'| - c'..] == s[|s| - c..] + [b];
      AgreesSnoc(ignoreCase, query[..c], s[|s| - c..], query[c], b);
    } else {
      assert s'[|s'|..] == [];
    }
  }

  /**
   * The cursor counts the query bytes matched by the most recent input:
   * the last `cursor` bytes read agree with the first `cursor` bytes of the query.
   */
  lemma {:induction false} CursorTracksInput(query: seq<Byte>, ignoreCase: bool, s: seq<Byte>)
    requires |query| > 0
    ensures CursorAgrees(query, ignoreCase, Scan(query, ignoreCase, s).cursor, s)
    decreases |s|
  {
    if s != [] {
      var p, b := s[..|s| - 1], s[|s| - 1];
      assert s == p + [b];
      ScanSnoc(query, ignoreCase, p, b);
      CursorTracksInput(query, ignoreCase, p);
      CursorStep(query, ignoreCase, Scan(query, ignoreCase, p), p, b);
    }
  }

  /** Agreement extends by one matching byte. */
  lemma AgreesSnoc(ignoreCase: bool, pattern: seq<Byte>, text: seq<Byte>, x: Byte, y: Byte)
    requires Agrees(ignoreCase, pattern, text) && ByteMatches(ignoreCase, x, y)
    ensures Agrees(ignoreCase, pattern + [x], text + [y])
  {
    forall i | 0 <= i < |pattern| + 1 ensures ByteMatches(ignoreCase, (pattern + [x])[i], (text + [y])[i]) {
      if i < |pattern| {
        assert (pattern + [x])[i] == pattern[i] && (text + [y])[i] == text[i];
      }
    }
  }

  /** Soundness: when a byte completes the query, the last |query| raw bytes read (newlines and carriage returns included) are an occurrence of it. */
  lemma CompletionIsSound(query: seq<Byte>, ignoreCase: bool, p: seq<Byte>, b: Byte)
    requires |query| > 0
    requires Completes(query, ignoreCase, Scan(query, ignoreCase, p).cursor, b)
    ensures OccursEndingAt(query, ignoreCase, p + [b], |p| + 1)
  {
    CursorTracksInput(query, ignoreCase, p);
    CompletionAt(query, ignoreCase, Scan(query, ignoreCase, p).cursor, p, b);
  }

  lemma CompletionAt(query: seq<Byte>, ignoreCase: bool, c: nat, p: seq<Byte>, b: Byte)
    requires c < |query| && CursorAgrees(query, ignoreCase, c, p) && Completes(query, ignoreCase, c, b)
    ensures OccursEndingAt(query, ignoreCase, p + [b], |p| + 1)
  {
    var s := p + [b];
    assert query == query[..c] + [query[c]];
    assert s[|s| - |query|..|s|] == p[|p| - c..] + [b];
    AgreesSnoc(ignoreCase, query[..c], p[|p| - c..], query[c], b);
  }

  /** Where the line buffer begins after one more byte. */
  lemma OriginSnoc(query: seq<Byte>, ignoreCase: bool, p: seq<Byte>, b: Byte)
    requires |query| > 0
    ensures var st := Scan(query, ignoreCase, p);
            Origin(query, ignoreCase, p + [b])
            == if b == LF && (st.found || !st.inside) then |p| + 1 else Origin(query, ignoreCase, p)
  {
    assert (p + [b])[..|p|] == p;
  }

  lemma SliceSnoc(p: seq<Byte>, b: Byte, k: nat)
    requires k <= |p|
    ensures (p + [b])[k..|p| + 1] == p[k..|p|] + [b]
  {
  }

  /** A byte that does not clear the buffer appends its escaped form. */
  lemma LineStep(query: seq<Byte>, ignoreCase: bool, st: State, t: seq<Byte>, b: Byte)
    requires st.cursor < |query| && st.line == Escape(t)
    requires !(b == LF && (st.found || !st.inside))
    ensures Step(query, ignoreCase, st, b).line == Escape(t + [b])
  {
    StepLine(query, ignoreCase, st, b);
    EscapeSnoc(t, b);
  }

  /** The line buffer is the escaped input read since a line start. */
  lemma {:induction false} LineIsEscapedInput(query: seq<Byte>, ignoreCase: bool, s: seq<Byte>)
    requires |query| > 0
    ensures Scan(query, ignoreCase, s).line == Escape(s[Origin(query, ignoreCase, s)..|s|])
    decreases |s|
  {
    if s != [] {
      var p, b := s[..|s| - 1], s[|s| - 1];
      assert s == p + [b];
      ScanSnoc(query, ignoreCase, p, b);
      OriginSnoc(query, ignoreCase, p, b);
      var st := Scan(query, ignoreCase, p);
      if b == LF && (st.found || !st.inside) {
        StepLine(query, ignoreCase, st, b);
      } else {
        LineIsEscapedInput(query, ignoreCase, p);
        var k := Origin(query, ignoreCase, p);
        SliceSnoc(p, b, k);
        LineStep(query, ignoreCase, st, p[k..|p|], b);
      }
    }
  }

  /** While `query_found` is set, an occurrence of the query ends inside the current line or at the newline that opens it. */
  lemma {:induction false} PendingMatchOccurs(query: seq<Byte>, ignoreCase: bool, s: seq<Byte>)
    requires |query| > 0
    requires Scan(query, ignoreCase, s).found
    ensures OccursWithin(query, ignoreCase, s, Origin(query, ignoreCase, s), |s|)
    decreases |s|
  {
    var p, b := s[..|s| - 1], s[|s| - 1];
    assert s == p + [b];
    ScanSnoc(query, ignoreCase, p, b);
    var st := Scan(query, ignoreCase, p);
    StepMatch(query, ignoreCase, st, b);
    OriginSnoc(query, ignoreCase, p, b);
    if Completes(query, ignoreCase, st.cursor, b) {
      CompletionIsSound(query, ignoreCase, p, b);
      assert OccursEndingAt(query, ignoreCase, s, |s|);
    } else {
      PendingMatchOccurs(query, ignoreCase, p);
      OccursWithinExtends(query, ignoreCase, p, b, Origin(query, ignoreCase, p), |p|);
    }
  }

  /** An occurrence stays where it is when a byte is appended. */
  lemma OccursExtends(query: seq<Byte>, ignoreCase: bool, p: seq<Byte>, b: Byte, e: nat)
    requires OccursEndingAt(query, ignoreCase, p, e)
    ensures OccursEndingAt(query, ignoreCase, p + [b], e)
  {
    assert (p + [b])[e - |query|..e] == p[e - |query|..e];
  }

  lemma OccursWithinExtends(query: seq<Byte>, ignoreCase: bool, p: seq<Byte>, b: Byte, lo: nat, hi: nat)
    requires OccursWithin(query, ignoreCase, p, lo, hi)
    ensures OccursWithin(query, ignoreCase, p + [b], lo, hi)
  {
    var e :| lo <= e <= hi && OccursEndingAt(query, ignoreCase, p, e);
    OccursExtends(query, ignoreCase, p, b, e);
  }

  lemma ReportedRunExtends(query: seq<Byte>, ignoreCase: bool, p: seq<Byte>, b: Byte, f: Line, k: nat, j: nat)
    requires j < |p| || (j == |p| && b == LF)
    requires ReportedRun(query, ignoreCase, p, f, k, j)
    ensures ReportedRun(query, ignoreCase, p + [b], f, k, j)
  {
    var s := p + [b];
    OccursWithinExtends(query, ignoreCase, p, b, k, j);
    assert s[k..j] == p[k..j];
    assert LineStart(s, k) by {
      if k > 0 {
        assert s[k - 1] == p[k - 1];
      }
    }
  }

  /** The line being assembled, with its pending match, is a reported run ending at the end of input. */
  lemma PendingLineIsRun(query: seq<Byte>, ignoreCase: bool, s: seq<Byte>)
    requires |query| > 0 && Scan(query, ignoreCase, s).found
    ensures ReportedRun(query, ignoreCase, s, Scan(query, ignoreCase, s).line, Origin(query, ignoreCase, s), |s|)
  {
    LineIsEscapedInput(query, ignoreCase, s);
    PendingMatchOccurs(query, ignoreCase, s);
  }

  /** A finding closed in `p` stays closed when a byte is appended. */
  lemma ClosedRunExtends(query: seq<Byte>, ignoreCase: bool, p: seq<Byte>, b: Byte, f: Line)
    requires ClosedRun(query, ignoreCase, p, f)
    ensures ClosedRun(query, ignoreCase, p + [b], f)
  {
    var k: nat, j: nat :| NewlineAt(p, j) && ReportedRun(query, ignoreCase, p, f, k, j);
    ReportedRunExtends(query, ignoreCase, p, b, f, k, j);
    assert NewlineAt(p + [b], j);
  }

  /** The line pushed at a newline is closed by that newline. */
  lemma PushedLineIsClosed(query: seq<Byte>, ignoreCase: bool, p: seq<Byte>)
    requires |query| > 0 && Scan(query, ignoreCase, p).found
    ensures ClosedRun(query, ignoreCase, p + [LF], Scan(query, ignoreCase, p).line)
  {
    var k := Origin(query, ignoreCase, p);
    PendingLineIsRun(query, ignoreCase, p);
    ReportedRunExtends(query, ignoreCase, p, LF, Scan(query, ignoreCase, p).line, k, |p|);
    assert NewlineAt(p + [LF], |p|);
  }

  /**
   * Every finding pushed at a newline is the escaped input from a line start
   * up to that newline (excluded), and an occurrence of the query ends in it
   * or at the newline that opens it.
   */
  lemma {:induction false} FindingsAreReportedRuns(query: seq<Byte>, ignoreCase: bool, s: seq<Byte>)
    requires |query| > 0
    ensures var fs := Scan(query, ignoreCase, s).findings;
            forall i :: 0 <= i < |fs| ==>
              ClosedRun(query, ignoreCase, s, fs[i])
    decreases |s|
  {
    if s != [] {
      var p, b := s[..|s| - 1], s[|s| - 1];
      assert s == p + [b];
      ScanSnoc(query, ignoreCase, p, b);
      FindingsAreReportedRuns(query, ignoreCase, p);
      var st := Scan(query, ignoreCase, p);
      var fs := Scan(query, ignoreCase, s).findings;
      forall i | 0 <= i < |fs|
        ensures ClosedRun(query, ignoreCase, s, fs[i])
      {
        if i < |st.findings| {
          assert fs[i] == st.findings[i];
          ClosedRunExtends(query, ignoreCase, p, b, fs[i]);
        } else {
          PushedLineIsClosed(query, ignoreCase, p);
        }
      }
    }
  }

  /**
   * The complete result of the loop and the final flush: every entry is the
   * escaped input of a line run ended by a newline or by the end of input, and
   * an occurrence of the query ends in it or at the newline that opens it.
   */
  lemma ResultsAreReportedRuns(query: seq<Byte>, ignoreCase: bool, s: seq<Byte>)
    requires |query| > 0
    ensures var fs := Finish(Scan(query, ignoreCase, s));
            forall i :: 0 <= i < |fs| ==>
              LineRun(query, ignoreCase, s, fs[i])
  {
    var st := Scan(query, ignoreCase, s);
    var fs := Finish(st);
    FindingsAreReportedRuns(query, ignoreCase, s);
    forall i | 0 <= i < |fs|
      ensures LineRun(query, ignoreCase, s, fs[i])
    {
      if i < |st.findings| {
        assert fs[i] == st.findings[i];
        assert ClosedRun(query, ignoreCase, s, fs[i]);
      } else {
        PendingLineIsRun(query, ignoreCase, s);
        assert RunEnd(s, |s|);
      }
    }
  }

  /** Findings are only ever appended: what has been found is a prefix of what will be found. */
  lemma {:induction false} FindingsOnlyGrow(query: seq<Byte>, ignoreCase: bool, s: seq<Byte>, t: seq<Byte>)
    requires |query| > 0
    ensures Scan(query, ignoreCase, s).findings <= Scan(query, ignoreCase, s + t).findings
    decreases |t|
  {
    if t != [] {
      var init, last := t[..|t| - 1], t[|t| - 1];
      assert s + t == (s + init) + [last];
      ScanSnoc(query, ignoreCase, s + init, last);
      FindingsOnlyGrow(query, ignoreCase, s, init);
    } else {
      assert s + t == s;
    }
  }

  /** At most one finding per raw newline, plus one for a match pending on the unterminated last line. */
  lemma {:induction false} FindingsBound(query: seq<Byte>, ignoreCase: bool, s: seq<Byte>)
    requires |query| > 0
    ensures |Scan(query, ignoreCase, s).findings| <= Newlines(s)
    ensures |Finish(Scan(query, ignoreCase, s))| <= Newlines(s) + 1
    decreases |s|
  {
    if s != [] {
      var p, b := s[..|s| - 1], s[|s| - 1];
      assert s == p + [b];
      ScanSnoc(query, ignoreCase, p, b);
      FindingsBound(query, ignoreCase, p);
    }
  }

  /** `t` is the text of a reported line run of `s`. */
  ghost predicate ReportedText(query: seq<Byte>, ignoreCase: bool, s: seq<Byte>, t: string) {
    exists f :: LineRun(query, ignoreCase, s, f) && AllAscii(f) && Decode(f) == t
  }

  /**
   * What a successful call returns: at most one line per newline plus one,
   * each the text of a line run of the input within which, or at the newline
   * that opens it, an occurrence of the query ends (it may begin on an
   * earlier line, as with `\njumps`).
   * The result is never a UTF-8 error.
   */
  lemma ReturnedFindings(query: seq<Byte>, ignoreCase: bool, input: seq<Byte>, found: seq<string>)
    requires SearchOutcome(query, ignoreCase, input) == Returned(Ok(found))
    ensures |found| <= Newlines(input) + 1
    ensures forall i :: 0 <= i < |found| ==> ReportedText(query, ignoreCase, input, found[i])
  {
    if |query| > 0 {
      var lines := Finish(Scan(query, ignoreCase, input));
      assert found == DecodeAll(lines);
      FindingsBound(query, ignoreCase, input);
      ResultsAreReportedRuns(query, ignoreCase, input);
      forall i | 0 <= i < |found| ensures ReportedText(query, ignoreCase, input, found[i]) {
        assert LineRun(query, ignoreCase, input, lines[i]) && Decode(lines[i]) == found[i];
      }
    }
  }

  /** A call never ends in a UTF-8 error: every buffer holds ASCII bytes only. */
  lemma NeverUtf8Error(query: seq<Byte>, ignoreCase: bool, input: seq<Byte>)
    ensures SearchOutcome(query, ignoreCase, input) != Returned(Err(Utf8Error))
  {
  }

  /** An empty input gives no findings, whatever the query. */
  lemma EmptyInputFindsNothing(query: seq<Byte>, ignoreCase: bool)
    ensures SearchOutcome(query, ignoreCase, []) == Returned(Ok([]))
  {
  }
}

=== FILE: whitespace.dfy ===
/**
 * Splitting a string into whitespace-separated words, as the argument
 * checks of src/args.rs and src/minigrep_args.rs do with `split_whitespace`.
 */
module Whitespace {
  /** The code points with the Unicode White_Space property. */
  const WhiteSpaceCodes: set<int> := {
    0x09, 0x0A, 0x0B, 0x0C, 0x0D, 0x20, 0x85, 0xA0, 0x1680,
    0x2000, 0x2001, 0x2002, 0x2003, 0x2004, 0x2005, 0x2006, 0x2007, 0x2008, 0x2009, 0x200A,
    0x2028, 0x2029, 0x202F, 0x205F, 0x3000
  }

  /** What Rust's `char::is_whitespace` tests. */
  predicate IsWhitespace(c: char): (r: bool)
    ensures c as int < 0x80 ==> (r <==> c == ' ' || '\t' <= c <= '\r')
    ensures r ==> c as int <= 0x3000
  {
    c as int in WhiteSpaceCodes
  }

  /** A maximal run of non-whitespace characters. */
  predicate IsWord(w: string) {
    |w| > 0 && forall i :: 0 <= i < |w| ==> !IsWhitespace(w[i])
  }

  /** The words of `s` in order, as `split_whitespace` yields them. */
  function Words(s: string): (r: seq<string>)
    ensures forall i :: 0 <= i < |r| ==> IsWord(r[i])
    ensures |s| > 0 && !IsWhitespace(s[|s| - 1]) ==> |r| > 0
    decreases |s|
  {
    if s == [] then []
    else
      var ws := Words(s[..|s| - 1]);
      var c := s[|s| - 1];
      if IsWhitespace(c) then ws
      else if |s| >= 2 && !IsWhitespace(s[|s| - 2]) then
        assert |ws| > 0;
        ws[..|ws| - 1] + [ws[|ws| - 1] + [c]]
      else ws + [[c]]
  }

  /**
   * `split_whitespace().nth(1).is_some()`: there is a second word, which is
   * the case exactly when whitespace separates two non-whitespace characters.
   */
  predicate HasSecondWord(s: string): (r: bool)
    ensures r <==> SeparatedWords(s)
  {
    SecondWordIff(s);
    |Words(s)| >= 2
  }

  /** Some character of `s` is not whitespace. */
  predicate HasWordChar(s: string) {
    exists i :: 0 <= i < |s| && !IsWhitespace(s[i])
  }

  /** Non-whitespace at `i` and `k` with whitespace at `j` between them. */
  predicate SeparatedAt(s: string, i: nat, j: nat, k: nat) {
    i < j < k < |s| && !IsWhitespace(s[i]) && IsWhitespace(s[j]) && !IsWhitespace(s[k])
  }

  /** Two non-whitespace characters of `s` with whitespace somewhere between them. */
  ghost predicate SeparatedWords(s: string) {
    exists i: nat, j: nat, k: nat :: SeparatedAt(s, i, j, k)
  }

  /** There is a first word exactly when some character is not whitespace. */
  lemma {:induction false} FirstWordIff(s: string)
    ensures |Words(s)| >= 1 <==> HasWordChar(s)
    decreases |s|
  {
    if s != [] {
      var p := s[..|s| - 1];
      FirstWordIff(p);
      if HasWordChar(p) {
        var i :| 0 <= i < |p| && !IsWhitespace(p[i]);
        assert s[i] == p[i];
      }
      if HasWordChar(s) && IsWhitespace(s[|s| - 1]) {
        var i :| 0 <= i < |s| && !IsWhitespace(s[i]);
        assert p[i] == s[i];
      }
    }
  }

  /** A pattern found in a prefix is still there after appending. */
  lemma SeparatedPrefix(s: string)
    requires |s| > 0 && SeparatedWords(s[..|s| - 1])
    ensures SeparatedWords(s)
  {
    var p := s[..|s| - 1];
    var i: nat, j: nat, k: nat :| SeparatedAt(p, i, j, k);
    assert s[i] == p[i] && s[j] == p[j] && s[k] == p[k];
    assert SeparatedAt(s, i, j, k);
  }

  /** Appending a character that does not start a word keeps the separated-words pattern as it was. */
  lemma SeparatedNoNewWord(s: string)
    requires |s| > 0
    requires IsWhitespace(s[|s| - 1]) || (|s| >= 2 && !IsWhitespace(s[|s| - 2]))
    ensures SeparatedWords(s) <==> SeparatedWords(s[..|s| - 1])
  {
    var p := s[..|s| - 1];
    if SeparatedWords(p) {
      SeparatedPrefix(s);
    }
    if SeparatedWords(s) {
      var i: nat, j: nat, k: nat :| SeparatedAt(s, i, j, k);
      var k' := if k == |s| - 1 then |s| - 2 else k;
      assert p[i] == s[i] && p[j] == s[j] && p[k'] == s[k'];
      assert SeparatedAt(p, i, j, k');
    }
  }

  /** A character that starts a new word completes the pattern exactly when a word came before it. */
  lemma SeparatedNewWord(s: string)
    requires |s| > 0 && !IsWhitespace(s[|s| - 1])
    requires |s| == 1 || IsWhitespace(s[|s| - 2])
    ensures SeparatedWords(s) <==> HasWordChar(s[..|s| - 1])
  {
    var p := s[..|s| - 1];
    if HasWordChar(p) {
      var i :| 0 <= i < |p| && !IsWhitespace(p[i]);
      assert s[i] == p[i] && s[|s| - 2] == p[|p| - 1];
      assert SeparatedAt(s, i, |s| - 2, |s| - 1);
    }
    if SeparatedWords(s) {
      var i: nat, j: nat, k: nat :| SeparatedAt(s, i, j, k);
      assert p[i] == s[i];
    }
  }

  /**
   * A query has a second word exactly when whitespace separates two
   * non-whitespace characters of it; leading and trailing whitespace alone
   * never makes a second word.
   */
  lemma {:induction false} SecondWordIff(s: string)
    ensures |Words(s)| >= 2 <==> SeparatedWords(s)
    decreases |s|
  {
    if s != [] {
      var p := s[..|s| - 1];
      SecondWordIff(p);
      if IsWhitespace(s[|s| - 1]) || (|s| >= 2 && !IsWhitespace(s[|s| - 2])) {
        SeparatedNoNewWord(s);
      } else {
        FirstWordIff(p);
        SeparatedNewWord(s);
      }
    }
  }
}

=== FILE: wrappers.dfy ===
/** The result type standing in for Rust's `Result<T, E>`. */
module Wrappers {
  datatype Result<+T, +E> = Ok(value: T) | Err(error: E)
}
